=== FILE: README.md ===
# MythMote session and remote-control logic in Dafny

MythMote is an Android remote control for a MythTV frontend. It speaks the
frontend's plain-text network control protocol over one socket: it sends
`key`, `jump`, `play` and `query` lines, and reads responses that end with the
two-character prompt `"# "`. This project models two parts of it.

- **`MythCom`, the session.** This covers:
  - the response decoder (`readResult`/`readLine`) and the newline rule of `sendData`;
  - the command wrappers and the acknowledgement check of `SendCommand`;
  - the status code and status notifications, and `Disconnect`'s teardown;
  - `Connect`, with the worker thread's result as a parameter;
  - the location poll `checkMythTvLocation`, with its de-duplication of location notifications;
  - the update timer's handle bookkeeping (`scheduleUpdateTimer`).
- **`MythMote`, the activity.** This covers the decisions it makes:
  - which tab, title, subtitle and delete button a frontend location selects;
  - which `key` tokens typed text becomes;
  - which keys the volume buttons send;
  - which title colour a status code gets.

Modules:

- `Wrappers` (`wrappers.dfy`): the `Option` type, used wherever the source may hold or return `null`.
- `Strings` (`strings.dfy`): `startsWith`/`endsWith`, and Java's `String.split` for a one-character pattern.
- `LineCodec` (`line_codec.dfy`): the input as a `seq<char>`, `readLine` and `readResult` as `ReadLine`/`Decode`, framing lemmas, `EnsureNewline` and `Command`.
- `UpdateTimer` (`update_timer.dfy`): the timer handle.
- `MythSession` (`myth_session.dfy`): the session record and every operation on it, each a function from the session before to the session after.
- `RemoteUi` (`remote_ui.dfy`): the activity's decisions as pure functions.

### What the model's parameters stand for

- **The input.** The characters the frontend has sent that are not yet read
  (`pending`). When they run out, the next read either times out (`Silence`, a
  `SocketTimeoutException`) or fails with an I/O error (`Broken(reason)`).
- **Line ends.** `BufferedReader.readLine` ends a line at `'\n'`, `'\r'` or `"\r\n"`, and so does the model. After a line that a lone `'\r'` ended, the reader remembers to drop a `'\n'` that comes next, even one that arrives in a later read. The session keeps that flag (`skipLF`). A new reader, made when the socket opens, starts without it.
- **One exchange (`Wire`).** Whether the write fails, which `close` fails, what the frontend answers, and how the read ends.
- **`Connect`.** The worker thread's result is a `ConnectOutcome`. The polling interval read from the preferences is a parameter.
- **The timer.** A tick is the operation `Tick`.
- **The listener.** It is always set, so `statusChanged` and `mythTvLocationChanged` calls are recorded in order in `events`.
- **Marshalling.** `runOnUiThread` and `Handler.post` run the posted code at once.

### Behaviour of the code worth knowing

The operations model the code as written, including where it departs from its own comments:

- **The connecting code is never stored.** `_statusCode` is written only at `MythCom.java:91, 124, 252, 259, 264, 271, 276`, so it never holds `STATUS_CONNECTING`. `IsConnecting()` is therefore always false (`NeverConnecting`). The "Connecting" notification still carries code 3.
- **A failed read or write leaves code 0, not 99.** The catch blocks at `MythCom.java:321-325` and `361-365` post the error with `STATUS_ERROR` and then call `Disconnect`, which stores `STATUS_DISCONNECTED`.
- **Close failures stop the teardown.** The closes in `Disconnect` share one `try` block (`MythCom.java:125-156`). The first failing `close` ends the teardown, the later handles stay open, and "Disconnect I/O error" is posted.
- **`Connect` does not disconnect first.** The comment at `MythCom.java:94` says any existing connection is broken first, but `Connect` never calls `Disconnect`. `connectSocket` reuses a socket that is still there (`MythCom.java:232-233`) and connects it again. Nothing is closed first, and the worker's result alone decides what stays open.
- **A failed connect may keep its socket.** On an `IOException` the worker drops the socket only if it is not already closed (`MythCom.java:281-289`), and it never drops the output stream.
- **"exit" is never sent.** The comment at `MythCom.java:127` promises it. This is Finding 1 below.
- **The poll can report "Connected" on a disconnected session.** This is Finding 2 below.

`Disconnect` and `CheckLocation` are the corrected versions of those two findings. They stand beside the as-written members, and no operation of the session uses them.

## Model

| member | source | states |
|---|---|---|
| LineCodec.ReadLine | src/tkj/android/homecontrol/mythmote/MythCom.java:348-368 | The prompt is recognised exactly when the first two characters are `#` and space, and the rest is what follows them. A line is the two characters plus everything up to the first line end; it never starts with the prompt and holds no break after its first two characters. Reading resumes after the terminator, and `"\r\n"` counts as one terminator. Input that ends before a whole line is `Exhausted`. |
| LineCodec.Decode | src/tkj/android/homecontrol/mythmote/MythCom.java:331-343 | The decoder stops short of the prompt only when it has consumed all input. It then records a timeout or the I/O failure, according to how the input ended. |
| LineCodec.DecodeRestSuffix | src/tkj/android/homecontrol/mythmote/MythCom.java:331-343 | What `readResult` leaves unread is a suffix of its input: reading only consumes. |
| LineCodec.DecodedLines | src/tkj/android/homecontrol/mythmote/MythCom.java:352-357 | Every decoded line has at least the two characters read first and is never the prompt. Each line consumes at least three characters. |
| LineCodec.ReadDataLine | src/tkj/android/homecontrol/mythmote/MythCom.java:352-357 | A data line followed by any of the three terminators is read back as exactly that line, and what follows the terminator is left. |
| LineCodec.LineThenReads | src/tkj/android/homecontrol/mythmote/MythCom.java:348-368 | Any input that starts with a line and its terminator is read as that line, with that remainder. |
| LineCodec.DecodeBody | src/tkj/android/homecontrol/mythmote/MythCom.java:335-339 | Data lines followed by more input decode to those lines, in order, followed by whatever the rest decodes to. The only exception is a lone `'\r'` ending the lines followed by a `'\n'`, which `DecodeSplit` covers. |
| LineCodec.DecodeSplit | src/tkj/android/homecontrol/mythmote/MythCom.java:348-357 | A line end split between reads is one line end. Data lines followed by more input decode to those lines, then to what the next read sees of the rest. After a lone `'\r'`, that is the rest without a leading `'\n'`; otherwise it is the rest itself. |
| LineCodec.DecodeLastLine | src/tkj/android/homecontrol/mythmote/MythCom.java:348-357 | A single data line followed by more input decodes to that line, then to what the next read sees of the rest. |
| LineCodec.DecodeFirstLine | src/tkj/android/homecontrol/mythmote/MythCom.java:348-357 | Given what the later lines and the rest decode to, a longer body decodes to its first line followed by exactly that. |
| LineCodec.FirstLineRead | src/tkj/android/homecontrol/mythmote/MythCom.java:352-356 | The first of several data lines is read as itself, up to the next line. The last one is read as itself, and reading goes on with what the next read sees of the input after it. |
| LineCodec.LastLineRead | src/tkj/android/homecontrol/mythmote/MythCom.java:352-356 | A last data line is read as itself. A `'\n'` right after a lone `'\r'` belongs to its line end. |
| LineCodec.CarriageReturnThenFeed | src/tkj/android/homecontrol/mythmote/MythCom.java:356 | A lone `'\r'` followed by input that starts with `'\n'` reads exactly like `"\r\n"`. |
| LineCodec.Skipped | src/tkj/android/homecontrol/mythmote/MythCom.java:352 | The next read sees the input unchanged, unless a skip is owed and the input starts with `'\n'`. In that case it sees the input without that character. |
| LineCodec.PromptOwesNoSkip | src/tkj/android/homecontrol/mythmote/MythCom.java:331-357 | A read that reaches the prompt leaves no skip owed. |
| LineCodec.BodyEndsOnReturn | src/tkj/android/homecontrol/mythmote/MythCom.java:356 | Reading a body of data lines to its end leaves a skip owed exactly when there are lines and they end at a lone `'\r'`. |
| LineCodec.FrameOwesNoSkip | src/tkj/android/homecontrol/mythmote/MythCom.java:331-357 | A framed response reads the same whether or not a skip is owed, and leaves none owed. |
| LineCodec.DecodeFrame | src/tkj/android/homecontrol/mythmote/MythCom.java:331-357 | Round trip: lines, then the prompt, then anything decode to exactly those lines. The prompt is consumed and the input after it is left unread. |
| LineCodec.DecodePromptFirst | src/tkj/android/homecontrol/mythmote/MythCom.java:352-354 | A response that starts with the prompt decodes to no lines, and exactly two characters are consumed. |
| LineCodec.DecodeUnfinished | src/tkj/android/homecontrol/mythmote/MythCom.java:358-366 | When the input runs out before the prompt, every line read so far is returned. The stop records the timeout or the failure. |
| LineCodec.ReadLineExtend | src/tkj/android/homecontrol/mythmote/MythCom.java:352-357 | A prompt, or a line already followed by more input, is read the same way whatever arrives later. |
| LineCodec.DecodeExtend | src/tkj/android/homecontrol/mythmote/MythCom.java:336-339 | Decoding looks no further than the prompt. Once a complete response is present, later input and the way the input ends change only the unread remainder. |
| LineCodec.ShortLineMerges | src/tkj/android/homecontrol/mythmote/MythCom.java:352-356 | An empty line is merged with the next one, because two characters are always read first. `"\nOK\n# "` decodes as the single line `"\nOK"`. |
| LineCodec.EnsureNewline | src/tkj/android/homecontrol/mythmote/MythCom.java:316-317 | The text sent ends with a line feed, starts with the data, and is at most one character longer. It equals the data exactly when the data already ended with a line feed. |
| LineCodec.EnsureNewlineIdempotent | src/tkj/android/homecontrol/mythmote/MythCom.java:316-317 | Applying the newline rule twice is the same as applying it once. |
| LineCodec.CommandLine | src/tkj/android/homecontrol/mythmote/MythCom.java:316-317 | A formatted command already ends with its newline, so it is sent as formatted. |
| LineCodec.CommandIsOneLine | src/tkj/android/homecontrol/mythmote/MythCom.java:180-200 | A wrapper's command is sent unchanged. When neither part holds a line break, the frontend reads it as the single line `verb argument`. |
| UpdateTimer.Reschedule | src/tkj/android/homecontrol/mythmote/MythCom.java:399-439 | Any live task is cancelled. A new task, with the interval as its period, is created exactly when the interval is positive. At most one task is ever live, and it is the newest. |
| MythSession.Init | src/tkj/android/homecontrol/mythmote/MythCom.java:88-92 | A new session is disconnected, has nothing open, has sent nothing, and is in a valid state. |
| MythSession.SetStatus | src/tkj/android/homecontrol/mythmote/MythCom.java:371-382 | The message is recorded and the listener is notified with the given code. The stored status code is never written. |
| MythSession.SetLocation | src/tkj/android/homecontrol/mythmote/MythCom.java:385-395 | A location notification is appended, and nothing else changes. |
| MythSession.Drain | src/tkj/android/homecontrol/mythmote/MythCom.java:311-314 | On a connected session with an input stream, stale input is read as one response and thrown away. Only a suffix of it stays, and the reader's skip flag is what that read leaves. Any other session is unchanged, and nothing but the input and that flag changes. |
| MythSession.Discard | src/tkj/android/homecontrol/mythmote/MythCom.java:312-314 | Reading the waiting input and throwing it away changes only the input and the skip flag. A suffix of the input stays, the flag is what the read leaves, and validity is kept. |
| MythSession.Waiting | src/tkj/android/homecontrol/mythmote/MythCom.java:352 | What the next read sees is a suffix of the waiting input. It is the whole input when no skip is owed. |
| MythSession.Unread | src/tkj/android/homecontrol/mythmote/MythCom.java:312-314 | Reading and discarding one response from waiting input, after any owed skip, leaves a suffix of that input unread, never anything new (`DrainFrame` and `DrainBody` pin down which suffix). |
| MythSession.UnreadSuffix | src/tkj/android/homecontrol/mythmote/MythCom.java:312-314 | Decoding a suffix of the waiting input leaves a suffix of that input unread. |
| MythSession.DrainClears | src/tkj/android/homecontrol/mythmote/MythCom.java:311-314 | Stale input that is read to its end is gone after the drain, and the skip flag is what that read leaves. |
| MythSession.DrainFrame | src/tkj/android/homecontrol/mythmote/MythCom.java:311-314 | Stale input holding a whole response is read up to and including its prompt. What follows the prompt stays waiting, and no skip is owed. |
| MythSession.DrainBody | src/tkj/android/homecontrol/mythmote/MythCom.java:311-314 | Stale lines without a prompt are all read and thrown away. A skip is then owed exactly when they end at a lone `'\r'`; with no lines the flag stays as it was. |
| MythSession.Release | src/tkj/android/homecontrol/mythmote/MythCom.java:131-156 | Without a close failure the output, the input and the socket are all dropped. The only notification ever added is the "Disconnect I/O error" report of a failing `close`. |
| MythSession.DisconnectAsWritten | src/tkj/android/homecontrol/mythmote/MythCom.java:122-157 | As written, the code becomes `STATUS_DISCONNECTED` and nothing is ever written, because the "exit" test reads the code just reset. Without a close failure every handle is released and no notification is added. Otherwise the only addition is "Disconnect I/O error". The frontend, last location and timer are kept, and validity is preserved. |
| MythSession.Disconnect | src/tkj/android/homecontrol/mythmote/MythCom.java:122-157 | As intended, the session records whether it was connected, resets the code to `STATUS_DISCONNECTED`, and then sends `"exit\n"` if it was connected and has an output stream, provided the write succeeds. Nothing is written when it was not connected or the write fails. Without a close failure nothing stays open. Only error reports are added, and the last location is kept. |
| MythSession.DisconnectIdempotent | src/tkj/android/homecontrol/mythmote/MythCom.java:122-157 | Without close failures, a second `Disconnect`, as written or as intended, writes nothing and ends in the same state. |
| MythSession.ExitLost | src/tkj/android/homecontrol/mythmote/MythCom.java:124-129 | On a connected session the as-written `Disconnect` sends nothing, while the intended one sends `"exit\n"`. |
| MythSession.WriteFailed | src/tkj/android/homecontrol/mythmote/MythCom.java:321-325 | A failed write reports "message: address" with `STATUS_ERROR` exactly once and disconnects as written, without writing. Without a close failure that report is the only notification added; otherwise "Disconnect I/O error" follows it. |
| MythSession.SendData | src/tkj/android/homecontrol/mythmote/MythCom.java:305-326 | When the write succeeds, stale input is drained and exactly the data with the newline rule is appended to the output. When it fails, nothing is written and the code becomes `STATUS_DISCONNECTED`. The first new report is the write error, and without a close failure it is the only one. |
| MythSession.Write | src/tkj/android/homecontrol/mythmote/MythCom.java:316-325 | The write step of sending: a successful write appends exactly the data with the newline rule to the output and changes nothing else. A failed write appends nothing, leaves the code `STATUS_DISCONNECTED`, and reports "message: address" with `STATUS_ERROR` first. Without a close failure, that report is the only one. |
| MythSession.ReadResult | src/tkj/android/homecontrol/mythmote/MythCom.java:331-343 | On a session that is not connected, or has no input stream, the result is the empty list and the session is unchanged. Otherwise the result is the lines decoded from what the read sees after any owed skip, and the skip flag is what the read leaves. A timeout leaves the code and the notifications unchanged. A failure reports the error and leaves the session disconnected. Reading never writes to the output. |
| MythSession.ReadFailed | src/tkj/android/homecontrol/mythmote/MythCom.java:361-365 | A failed read reports "message: address" with `STATUS_ERROR` first and disconnects as written, without writing. Without a close failure that report is the only notification added, and the input is dropped. |
| MythSession.SendCommand | src/tkj/android/homecontrol/mythmote/MythCom.java:159-178 | A session that is not connected gives `None` and is unchanged. An acknowledged answer is never without a first line "OK". A query on a connected session always answers. A successful write sends exactly the command with its newline and nothing else; a failed one sends nothing. The code is unchanged or `STATUS_DISCONNECTED`, and only error reports are added. |
| MythSession.SendCommandExchange | src/tkj/android/homecontrol/mythmote/MythCom.java:159-173 | Round trip of a healthy exchange. The command goes out with its newline, and the framed response comes back as its lines. `None` comes back exactly when "OK" was expected but not received. The code is unchanged and the input after the prompt stays waiting. |
| MythSession.ReturnSplitAcrossReads | src/tkj/android/homecontrol/mythmote/MythCom.java:305-343 | Stale input whose last line ends at a lone `'\r'` is drained. The `'\n'` that starts the reply completes that line end. The reply's lines then come back as if the reply had arrived alone, with the `OK` check as in any exchange. |
| MythSession.StaleReturnWrites | src/tkj/android/homecontrol/mythmote/MythCom.java:310-320 | Stale input holding one data line that ends at a lone `'\r'` is read away before the command is written. The input is then empty, exactly the command and its newline go out, and the reader owes the skip of a `'\n'`. |
| MythSession.OwedFeedRead | src/tkj/android/homecontrol/mythmote/MythCom.java:331-343 | A read that owes a skip and meets a `'\n'` and then a framed response drops that `'\n'` and returns the response's lines. What follows the prompt stays waiting, and no skip is owed afterwards. |
| MythSession.ExchangeWrites | src/tkj/android/homecontrol/mythmote/MythCom.java:310-320 | On a healthy connection whose stale input is fully read, `sendData` empties the input and appends exactly the command with its newline. |
| MythSession.SendCommandReads | src/tkj/android/homecontrol/mythmote/MythCom.java:305-343 | On a healthy connection whose stale input is fully read, a command's result is exactly the read of the reply on the session that the write left, with `None` when an expected `OK` is missing. |
| MythSession.ExchangeReads | src/tkj/android/homecontrol/mythmote/MythCom.java:331-343 | A framed response waiting on a connected input is returned as its lines, whatever skip is owed. The prompt is consumed, what follows it stays waiting, and no skip is owed afterwards. |
| MythSession.SendCommandWrites | src/tkj/android/homecontrol/mythmote/MythCom.java:159-173 | Without errors, a command writes exactly its line. A rejected acknowledgement leaves the code and the notifications as they were. |
| MythSession.SendCommandWriteFails | src/tkj/android/homecontrol/mythmote/MythCom.java:161-173 | After a failed write the session is disconnected with the error reported. An acknowledged command gives `None`, and a query gives the empty list. |
| MythSession.SendKey | src/tkj/android/homecontrol/mythmote/MythCom.java:185-191 | A session that is not connected is left unchanged, and validity is preserved. |
| MythSession.KeyLine | src/tkj/android/homecontrol/mythmote/MythCom.java:185-191 | `SendKey` writes `"key <key>\n"`. |
| MythSession.SendQuery | src/tkj/android/homecontrol/mythmote/MythCom.java:198-201 | A query on a connected session always answers, even if only with the empty list. A session that is not connected gives `None`. |
| MythSession.QueryLine | src/tkj/android/homecontrol/mythmote/MythCom.java:198-201 | `SendQuery` writes `"query <query>\n"`. |
| MythSession.SendJump | src/tkj/android/homecontrol/mythmote/MythCom.java:180-183 | A session that is not connected is left unchanged. The command is followed by the poll as written. The code is unchanged or `STATUS_DISCONNECTED`. |
| MythSession.JumpLine | src/tkj/android/homecontrol/mythmote/MythCom.java:180-183 | `SendJumpCommand` writes `"jump <point>\n"` and then the poll's `"query location\n"`. |
| MythSession.SendPlay | src/tkj/android/homecontrol/mythmote/MythCom.java:193-196 | A session that is not connected is left unchanged. The command is followed by the poll as written. The code is unchanged or `STATUS_DISCONNECTED`. |
| MythSession.PlayLine | src/tkj/android/homecontrol/mythmote/MythCom.java:193-196 | `SendPlayCommand` writes `"play <command>\n"` and then `"query location\n"`. |
| MythSession.PollLine | src/tkj/android/homecontrol/mythmote/MythCom.java:441-445 | The poll as written, on a healthy connection, writes `"query location\n"`. |
| MythSession.Noticed | src/tkj/android/homecontrol/mythmote/MythCom.java:454-458 | A location notification is raised exactly when the location differs from the last one seen. The location then becomes the last one, and nothing else changes. |
| MythSession.CheckLocationAsWritten | src/tkj/android/homecontrol/mythmote/MythCom.java:441-461 | As written, a session that is not connected is left unchanged. The code stays or becomes `STATUS_DISCONNECTED`, the frontend and timer are kept, notifications are only appended, and validity is preserved. |
| MythSession.Posted | src/tkj/android/homecontrol/mythmote/MythCom.java:447-459 | As written, the poll handles the answer as follows. An empty answer changes nothing. A non-empty answer records its first line as the last location. `null` only posts "Disconnected" with `STATUS_DISCONNECTED`, and changes nothing else. Only the status, the notifications and the last location change, and notifications are only appended. |
| MythSession.Answered | src/tkj/android/homecontrol/mythmote/MythCom.java:451-459 | An empty answer changes nothing. A non-empty answer records its first line as the last location. "Connected" is reported only on a connected session. |
| MythSession.CheckLocation | src/tkj/android/homecontrol/mythmote/MythCom.java:441-461 | A poll does nothing unless connected. It keeps the frontend and the timer, and only appends notifications. |
| MythSession.CheckLocationReports | src/tkj/android/homecontrol/mythmote/MythCom.java:441-461 | A poll reports only errors, plus "Connected" when it leaves the session connected. |
| MythSession.PollsAgree | src/tkj/android/homecontrol/mythmote/MythCom.java:441-461 | The poll as written and as intended are the same poll whenever the query leaves the session connected. They differ only after the query disconnects. |
| MythSession.CheckLocationNotices | src/tkj/android/homecontrol/mythmote/MythCom.java:451-459 | On a healthy exchange the poll as written equals the intended one. A non-empty answer reports "Connected". It notifies the first line exactly when that line differs from the last location, then remembers it. The code is unchanged. |
| MythSession.PollAnswered | src/tkj/android/homecontrol/mythmote/MythCom.java:441-451 | A poll on a healthy connection answered with a framed response sends exactly `query location` and its newline. It leaves the tail waiting with no skip owed and the session connected, and it is then that response's bookkeeping on that session. |
| MythSession.AnsweredNotices | src/tkj/android/homecontrol/mythmote/MythCom.java:451-459 | A non-empty answer on a connected session reports "Connected", then notifies the first line exactly when it is new. The code, the sent text and the waiting input stay as they were. |
| MythSession.CheckLocationEmpty | src/tkj/android/homecontrol/mythmote/MythCom.java:445-451 | On a healthy exchange the poll as written equals the intended one. An empty answer leaves the last location, the notifications and the code unchanged. |
| MythSession.RepeatedLocationQuiet | src/tkj/android/homecontrol/mythmote/MythCom.java:455-458 | The poll as written, when it sees the last location again, raises no location notification. |
| MythSession.OneLineThenFailure | src/tkj/android/homecontrol/mythmote/MythCom.java:358-366 | A line followed by an I/O error decodes to that line, with the failure recorded. |
| MythSession.ReadFailsAfterLine | src/tkj/android/homecontrol/mythmote/MythCom.java:331-343 | Such a read returns the line and leaves the session disconnected. |
| MythSession.QueryFailsAfterLine | src/tkj/android/homecontrol/mythmote/MythCom.java:198-201 | A location query whose read fails after one line answers that line, on a disconnected session. |
| MythSession.PollHidesReadError | src/tkj/android/homecontrol/mythmote/MythCom.java:441-461 | As written, the poll then ends disconnected yet still reports "Connected". As intended, it reports only the error. |
| MythSession.Connect | src/tkj/android/homecontrol/mythmote/MythCom.java:95-119 | The timer is re-armed and the frontend taken. "Connecting" (code 3) is reported, then the worker's message with the code it stored. The session is connected exactly when the socket opened, and then both streams and the socket are present, with a fresh reader that owes no skip. Any other outcome stores `STATUS_ERROR`. |
| MythSession.ConnectWorker | src/tkj/android/homecontrol/mythmote/MythCom.java:236-291 | Only the code, message, streams, socket, input and skip flag change. The session is connected exactly when the socket opened, with both streams, the banner as input and no skip owed. Any other outcome stores `STATUS_ERROR`. An IOException drops the input stream and keeps the socket only if it was already closed. |
| MythSession.Tick | src/tkj/android/homecontrol/mythmote/MythCom.java:419-432 | A timer tick does nothing unless the timer is armed and the session connected. It keeps the timer and the frontend, only appends notifications, leaves the code as it was or `STATUS_DISCONNECTED`, and keeps the session valid. |
| MythSession.TickPolls | src/tkj/android/homecontrol/mythmote/MythCom.java:424-428 | On an armed, connected session with healthy I/O, a tick runs the poll and writes exactly `"query location\n"`. |
| MythSession.Step | src/tkj/android/homecontrol/mythmote/MythCom.java:95-201 | Every public operation, as written, keeps the session valid. |
| MythSession.RunValid | src/tkj/android/homecontrol/mythmote/MythCom.java:88-92 | Every sequence of the operations as written, from a valid session, ends in a valid session. |
| MythSession.NeverConnecting | src/tkj/android/homecontrol/mythmote/MythCom.java:223-227 | `IsConnecting()` is false after every sequence of the operations as written, from a new session. |
| RemoteUi.ScreenFor | src/tkj/android/homecontrol/mythmote/MythMote.java:330-365 | Only a playback location can select a tab other than the menu tab, or fail for missing tokens. A visible delete button always comes with the menu tab, the location as title and no subtitle. |
| RemoteUi.PrefixesExclusive | src/tkj/android/homecontrol/mythmote/MythMote.java:335-359 | No location starts with two of the compared prefixes, so the order of the comparisons never decides the outcome. |
| RemoteUi.PlaybackVideoScreen | src/tkj/android/homecontrol/mythmote/MythMote.java:335-340 | "Playback Video t …" selects the video tab, with title "Playing Video" and subtitle `t`. |
| RemoteUi.PlaybackRecordedScreen | src/tkj/android/homecontrol/mythmote/MythMote.java:341-347 | "Playback Recorded t x l …" selects the video tab, with title "Playing Recording" and subtitle "t of l". |
| RemoteUi.PlaybackLiveTvScreen | src/tkj/android/homecontrol/mythmote/MythMote.java:348-354 | "Playback LiveTV t x l …" selects the Live TV tab, with title "Playing Live TV" and subtitle "t of l". |
| RemoteUi.MenuScreen | src/tkj/android/homecontrol/mythmote/MythMote.java:355-364 | Any other location selects the menu tab, with the location as title and no subtitle. The delete button is shown exactly for "mythvideo…" and "playbackbox…". |
| RemoteUi.PlaybackWithoutTime | src/tkj/android/homecontrol/mythmote/MythMote.java:335-337 | "Playback Video" alone has no third token, and the activity takes the exception path. |
| Strings.JavaSplitJoin | src/tkj/android/homecontrol/mythmote/MythMote.java:336 | `split(" ")` of two or more single-space-separated non-empty tokens gives back exactly those tokens. |
| Strings.JavaSplitKeeps | src/tkj/android/homecontrol/mythmote/MythMote.java:336 | `split(" ")` keeps every non-empty piece at its index. |
| RemoteUi.KeyFor | src/tkj/android/homecontrol/mythmote/MythMote.java:431-448 | A character sends nothing exactly when it is whitespace other than tab, space and carriage return. A one-character token is the character itself, and it is not whitespace. No token holds a line break. |
| RemoteUi.KeysFor | src/tkj/android/homecontrol/mythmote/MythMote.java:429-449 | Typed text never sends more tokens than it has characters. It sends exactly as many tokens when no character is dropped. |
| RemoteUi.KeysForAppend | src/tkj/android/homecontrol/mythmote/MythMote.java:429-449 | Tokens follow the order of the characters: the tokens for `a + b` are those for `a`, then those for `b`. |
| RemoteUi.UntypeKeysFor | src/tkj/android/homecontrol/mythmote/MythMote.java:429-449 | Round trip: the tokens stand for exactly the characters that were not dropped, in typing order. |
| RemoteUi.TypedCommands | src/tkj/android/homecontrol/mythmote/MythMote.java:429-449 | The send button writes one `key` command per token, in order. |
| RemoteUi.VolumeKey | src/tkj/android/homecontrol/mythmote/MythMote.java:176-188 | Exactly the two volume buttons are handled. |
| RemoteUi.VolumeKeys | src/tkj/android/homecontrol/mythmote/MythMote.java:60-61 | Volume down sends "[" and volume up sends "]". These are the tokens that typing those brackets would send. |
| RemoteUi.TitleColour | src/tkj/android/homecontrol/mythmote/MythMote.java:315-323 | The colour is red exactly for the error and disconnected codes, green exactly for connected, and yellow exactly for connecting. |
| RemoteUi.StatusShown | src/tkj/android/homecontrol/mythmote/MythMote.java:310-324 | The title becomes the message. The four known codes set their colour, and any other code keeps the previous colour. |
| RemoteUi.ColoursDistinct | src/tkj/android/homecontrol/mythmote/MythMote.java:315-323 | Every status code MythCom defines recolours the title, and the three colours are distinct ARGB values. |

## Left out

- The socket, streams, threads, `Handler`, `runOnUiThread`, `Toast`, `ConnectivityManager` (`IsNetworkReady`) and `synchronized` are platform I/O and concurrency. Each operation runs to completion, one at a time.
- Partial reads (`read(char[])` returning fewer than two characters) and end of stream are left out. With `readLine` returning `null` at end of stream, end of stream gives the line `"..null"` and no prompt, and the source would loop. Running out of input is modelled as a timeout or an I/O error instead.
- An I/O error while draining stale input inside `sendData` is not modelled. The drain always ends in a timeout.
- A null output stream, input stream or frontend, which the source would dereference and fail on, is modelled as writing nothing, reading nothing, or the empty name and address.
- `connectSocket`'s network work is a parameter (`ConnectOutcome`), as is the preference lookup of the polling interval. `SOCKET_TIMEOUT` only bounds the timeout that `Silence` stands for.
- `GetStatusStr` and `SetOnStatusChangeHandler` are the `status` field and the always-present listener.
- Logging (`Log.e`, `Log.w`) has no effect on the state and is left out.
- `java.util.Timer` scheduling is left out. A tick is an explicit operation (`Tick`).
- `Character.isWhitespace` is written out for `char` values as Unicode 6.0 to 6.2 defines whitespace (Java 7 and 8, and the Android runtimes of the app's era). Those versions count U+180E; Unicode 6.3 and later do not. Code points above U+FFFF are not `char`s.
- The activity's lifecycle, menus, preferences, tab layout and key-binding wiring are Android UI and are not part of this model.
- SendKey: its contract only says it does nothing when not connected and keeps the session valid. What it writes is stated by `KeyLine`, under healthy I/O.
- SendJump, SendPlay: the same applies, with `JumpLine` and `PlayLine`.
- CheckLocationAsWritten: its own contract states only its frame. Its de-duplication is stated through `PollsAgree`, `CheckLocationNotices`, `CheckLocationEmpty` and `RepeatedLocationQuiet`, and its defect is shown by `PollHidesReadError`.
- KeyFor, KeysFor: typed text is a sequence of Unicode code points (Dafny `char`), not of UTF-16 units. A character above U+FFFF is one key here, while the loop at `MythMote.java:429-449` sends its two surrogate halves as two keys.
- Connect: the worker's result (`ConnectOutcome`) is a parameter and is not tied to the state before the call. When a socket is left over from an earlier connection, `Socket.connect` in the Java library decides the result. That library is not part of this model.
- CheckLocation: the branch for a `null` answer (`MythCom.java:447-450`) is not written out, because `SendQuery` never answers `None` on a connected session. `CheckLocationAsWritten` keeps it.

## Findings

| source | as written | input that shows it | evidently intended | confidence | as-written member | corrected member |
|---|---|---|---|---|---|---|
| src/tkj/android/homecontrol/mythmote/MythCom.java:124-129 | `Disconnect` sets `_statusCode` to `STATUS_DISCONNECTED` before `if (IsConnected()) sendData("exit\n")`, so the test is always false and "exit" is never sent | any connected session with an output stream and a working write: the intended result writes `"exit\n"`, the as-written one writes nothing (`ExitLost`) | remember whether the session was connected on entry, reset the code, then send "exit" if it was | high (not executed) | MythSession.DisconnectAsWritten | MythSession.Disconnect |
| src/tkj/android/homecontrol/mythmote/MythCom.java:441-461 | after `SendQuery("location")` returns a non-empty list, the poll always posts `name + " - Connected"` with `STATUS_CONNECTED` | a connected session whose location query gets one data line and then an I/O error: `readLine` reports the error and disconnects, `readResult` still returns the line, and the poll then reports "Connected" on a disconnected session, hiding the error (`PollHidesReadError`) | report "Connected" only while the session is still connected | medium (not executed) | MythSession.CheckLocationAsWritten | MythSession.CheckLocation |

=== FILE: line_codec.dfy ===
/** The MythTV frontend's plain-text line protocol, as MythCom speaks it.

    Responses: the frontend sends zero or more lines and then the two-character
    prompt "# ". The client reads two characters; if they are the prompt the
    response is over, otherwise they and the rest of that line (read by a
    buffered reader, so '\n', '\r' and "\r\n" all end a line) form one result
    line. The input is the sequence of characters available on the socket; when
    it runs out, the next read either times out or fails with an I/O error.

    Commands: a command is sent as one line; a missing trailing newline is added. */
module LineCodec {
  import opened Strings

  /** The prompt that ends every response. */
  const Sentinel: string := "# "

  /** True iff the first two characters of `s` are the prompt, compared one by one. */
  predicate AtSentinel(s: seq<char>) {
    |s| >= 2 && s[0] == '#' && s[1] == ' '
  }

  /** Characters that end a line for `BufferedReader.readLine`. */
  predicate IsBreak(c: char) {
    c == '\n' || c == '\r'
  }

  /** Index of the first line break in `s`, or `|s|` when there is none. */
  function LineBreak(s: seq<char>): (i: nat)
    ensures i <= |s|
    ensures forall j :: 0 <= j < i ==> !IsBreak(s[j])
    ensures i < |s| ==> IsBreak(s[i])
    decreases |s|
  {
    if |s| == 0 then 0
    else if IsBreak(s[0]) then 0
    else 1 + LineBreak(s[1..])
  }

  /** A break at index `k` preceded by none is the first break. */
  lemma {:induction false} LineBreakAt(s: seq<char>, k: nat)
    requires k < |s| && IsBreak(s[k])
    requires forall j :: 0 <= j < k ==> !IsBreak(s[j])
    ensures LineBreak(s) == k
    decreases k
  {
    if k > 0 {
      assert !IsBreak(s[0]);
      assert forall j :: 0 <= j < k - 1 ==> !IsBreak(s[1..][j]) by {
        forall j | 0 <= j < k - 1 ensures !IsBreak(s[1..][j]) {
          assert s[1..][j] == s[j + 1];
        }
      }
      LineBreakAt(s[1..], k - 1);
    }
  }

  /** Characters taken by the terminator at index `i`: a carriage return directly
      followed by a line feed is one terminator. */
  function BreakLength(s: seq<char>, i: nat): nat
    requires i < |s| && IsBreak(s[i])
  {
    if s[i] == '\r' && i + 1 < |s| && s[i + 1] == '\n' then 2 else 1
  }

  /** What happens when the available input runs out: the read times out
      (SocketTimeoutException) or fails (any other IOException). */
  datatype Ending = Silence | Broken(reason: string)

  /** Outcome of one `readLine` call. */
  datatype ReadOutcome =
    | Prompt(rest: seq<char>)             // the prompt was read; `readLine` returns null
    | Line(text: string, rest: seq<char>) // one result line
    | Exhausted                           // the input ran out before a prompt or a whole line

  /** `input` starts with the result line `text` (at least the two characters read
      first, not the prompt, no break after them), a terminator, and then `rest`. */
  predicate LineThen(input: seq<char>, text: string, rest: seq<char>) {
    && 2 <= |text| < |input|
    && text == input[..|text|]
    && !AtSentinel(text)
    && (forall j :: 2 <= j < |text| ==> !IsBreak(input[j]))
    && IsBreak(input[|text|])
    && rest == input[|text| + BreakLength(input, |text|)..]
  }

  /** `input` ends before the two characters, or before the end of the line they begin. */
  predicate Incomplete(input: seq<char>) {
    |input| < 2 || (!AtSentinel(input) && forall j :: 2 <= j < |input| ==> !IsBreak(input[j]))
  }

  /** `readLine`: two characters, then (unless they are the prompt) the rest of the line. */
  function ReadLine(input: seq<char>): (r: ReadOutcome)
    ensures r.Prompt? <==> AtSentinel(input)
    ensures r.Prompt? ==> r.rest == input[2..]
    ensures r.Line? ==> LineThen(input, r.text, r.rest)
    ensures r.Exhausted? ==> Incomplete(input)
    ensures !r.Exhausted? ==> |r.rest| < |input|
  {
    if |input| < 2 then Exhausted
    else if AtSentinel(input) then Prompt(input[2..])
    else
      var n := 2 + LineBreak(input[2..]);
      assert forall j :: 2 <= j < n ==> !IsBreak(input[j]) by {
        forall j | 2 <= j < n ensures !IsBreak(input[j]) {
          assert input[j] == input[2..][j - 2];
        }
      }
      if n == |input| then Exhausted
      else
        Line(input[..n], input[n + BreakLength(input, n)..])
  }

  /** Why decoding stopped. */
  datatype Stop = AtPrompt | TimedOut | Failed(reason: string)

  /** The stop that an exhausted input leads to. */
  function EndOf(e: Ending): Stop {
    match e
    case Silence => TimedOut
    case Broken(m) => Failed(m)
  }

  /** The lines of one response, the input left unread, and why reading stopped. */
  datatype Decoded = Decoded(lines: seq<string>, rest: seq<char>, stop: Stop)

  /** `readResult`: call `readLine` until it returns null. */
  function Decode(input: seq<char>, ending: Ending): (r: Decoded)
    ensures |r.rest| <= |input|
    ensures r.stop != AtPrompt ==> r.rest == [] && r.stop == EndOf(ending)
    decreases |input|
  {
    match ReadLine(input)
    case Prompt(rest) => Decoded([], rest, AtPrompt)
    case Exhausted => Decoded([], [], EndOf(ending))
    case Line(text, rest) =>
      var d := Decode(rest, ending);
      Decoded([text] + d.lines, d.rest, d.stop)
  }

  /** The unread remainder is a suffix of the input. */
  lemma {:induction false} DecodeRestSuffix(input: seq<char>, ending: Ending)
    ensures var r := Decode(input, ending); r.rest == input[|input| - |r.rest|..]
    decreases |input|
  {
    match ReadLine(input)
    case Prompt(rest) =>
      assert input[|input| - |rest|..] == rest;
    case Exhausted =>
    case Line(text, rest) =>
      DecodeRestSuffix(rest, ending);
      assert rest == input[|input| - |rest|..];
      SuffixOfSuffix(input, rest, Decode(rest, ending).rest);
  }

  /** A suffix of a suffix is a suffix. */
  lemma SuffixOfSuffix<T>(a: seq<T>, b: seq<T>, c: seq<T>)
    requires |b| <= |a| && b == a[|a| - |b|..]
    requires |c| <= |b| && c == b[|b| - |c|..]
    ensures c == a[|a| - |c|..]
  {
    assert b[|b| - |c|..] == a[|a| - |c|..];
  }

  /** No decoded line is the prompt or shorter than the two characters read first,
      and each line used up at least three characters of input (two and a terminator). */
  lemma {:induction false} DecodedLines(input: seq<char>, ending: Ending)
    ensures var r := Decode(input, ending);
      && (forall i :: 0 <= i < |r.lines| ==> |r.lines[i]| >= 2 && !AtSentinel(r.lines[i]))
      && 3 * |r.lines| <= |input| - |r.rest|
    decreases |input|
  {
    match ReadLine(input)
    case Prompt(rest) =>
    case Exhausted =>
    case Line(text, rest) =>
      DecodedLines(rest, ending);
      var d := Decode(rest, ending);
      var lines := [text] + d.lines;
      assert Decode(input, ending).lines == lines;
      forall i | 0 <= i < |lines| ensures |lines[i]| >= 2 && !AtSentinel(lines[i]) {
        if i > 0 {
          assert lines[i] == d.lines[i - 1];
        }
      }
  }

  /** A line the protocol can carry intact: at least the two characters read
      first, not starting with the prompt, and without a line break. */
  predicate DataLine(line: string) {
    && |line| >= 2
    && !AtSentinel(line)
    && forall i :: 0 <= i < |line| ==> !IsBreak(line[i])
  }

  /** Every one of `lines` is a data line. */
  predicate DataLines(lines: seq<string>)
    decreases |lines|
  {
    |lines| == 0 || (DataLine(lines[0]) && DataLines(lines[1..]))
  }

  /** The line terminators a frontend may use. */
  predicate LineEnd(eol: string) {
    eol == "\n" || eol == "\r\n" || eol == "\r"
  }

  /** The lines of a response, each followed by `eol`. */
  function Body(lines: seq<string>, eol: string): seq<char>
    decreases |lines|
  {
    if |lines| == 0 then [] else lines[0] + eol + Body(lines[1..], eol)
  }

  /** A complete response: its lines and then the prompt. */
  function Frame(lines: seq<string>, eol: string): seq<char> {
    Body(lines, eol) + Sentinel
  }

  /** One data line and its terminator are read as exactly that line. */
  lemma ReadDataLine(line: string, eol: string, more: seq<char>)
    requires DataLine(line) && LineEnd(eol)
    requires eol == "\r" ==> |more| == 0 || more[0] != '\n'
    ensures ReadLine(line + eol + more) == Line(line, more)
  {
    var input := line + eol + more;
    assert input[..2] == line[..2];
    DataLineBreak(line, eol, more);
    DataLineTerminator(line, eol, more);
    assert input[..|line|] == line;
  }

  /** After the two characters read first, the first break of a data line's input
      is its terminator. */
  lemma DataLineBreak(line: string, eol: string, more: seq<char>)
    requires DataLine(line) && |eol| > 0 && IsBreak(eol[0])
    ensures LineBreak((line + eol + more)[2..]) == |line| - 2
  {
    var after := (line + eol + more)[2..];
    assert forall j :: 0 <= j < |line| - 2 ==> !IsBreak(after[j]) by {
      forall j | 0 <= j < |line| - 2 ensures !IsBreak(after[j]) {
        assert after[j] == line[j + 2];
      }
    }
    assert after[|line| - 2] == eol[0];
    LineBreakAt(after, |line| - 2);
  }

  /** The terminator after a data line is taken whole, and reading resumes right
      after it. */
  lemma DataLineTerminator(line: string, eol: string, more: seq<char>)
    requires LineEnd(eol)
    requires eol == "\r" ==> |more| == 0 || more[0] != '\n'
    ensures var input := line + eol + more;
      |line| < |input| && IsBreak(input[|line|]) && BreakLength(input, |line|) == |eol|
      && input[|line| + |eol|..] == more
  {
    var input := line + eol + more;
    assert input[|line|] == eol[0];
    if |eol| == 2 {
      assert input[|line| + 1] == eol[1];
    } else if |more| > 0 {
      assert input[|line| + 1] == more[0];
    }
    assert input[|line| + |eol|..] == more;
  }

  /** A non-empty body followed by `tail` is its first line, the terminator, and the rest. */
  lemma BodyCons(lines: seq<string>, eol: string, tail: seq<char>)
    requires |lines| > 0
    ensures Body(lines, eol) + tail == lines[0] + eol + (Body(lines[1..], eol) + tail)
  {
  }

  /** What follows a data line in a body never starts with a line feed, so a lone
      carriage return ends that line without swallowing a character. */
  lemma AfterLineNoFeed(lines: seq<string>, eol: string, tail: seq<char>)
    requires |lines| > 0 && DataLine(lines[0])
    ensures var b := Body(lines, eol) + tail; |b| > 0 && b[0] != '\n'
  {
    BodyCons(lines, eol, tail);
    var b := Body(lines, eol) + tail;
    assert b[0] == lines[0][0];
  }

  /** Splitting off the head of `xs` commutes with appending `ys`. */
  lemma ConsAppend<T>(xs: seq<T>, ys: seq<T>)
    requires |xs| > 0
    ensures [xs[0]] + (xs[1..] + ys) == xs + ys
  {
    assert xs == [xs[0]] + xs[1..];
  }

  /** A body of data lines followed by `rest` decodes to those lines and then to
      whatever `rest` decodes to, unless a lone '\r' ending the last line meets a
      '\n' at the start of `rest` (`DecodeSplit` covers that case). */
  lemma DecodeBody(lines: seq<string>, eol: string, rest: seq<char>, ending: Ending)
    requires LineEnd(eol) && DataLines(lines)
    requires eol == "\r" ==> |rest| == 0 || rest[0] != '\n'
    ensures var d := Decode(rest, ending);
      Decode(Body(lines, eol) + rest, ending) == Decoded(lines + d.lines, d.rest, d.stop)
  {
    DecodeSplit(lines, eol, rest, ending);
  }

  // ---------------------------------------------------------------------------
  // A line feed owed across reads
  // ---------------------------------------------------------------------------

  /** What the next read sees of `input` while the reader owes a skip (`skip`):
      `BufferedReader` remembers that a line ended at a lone '\r' and drops a '\n'
      that comes next, even when the two arrive in different reads. */
  function Skipped(input: seq<char>, skip: bool): (r: seq<char>)
    ensures !skip || |input| == 0 || input[0] != '\n' ==> r == input
    ensures skip && |input| > 0 && input[0] == '\n' ==> r == input[1..]
  {
    if skip && |input| > 0 && input[0] == '\n' then input[1..] else input
  }

  /** Dropping an owed '\n' leaves a suffix of the input. */
  lemma SkippedSuffix(input: seq<char>, skip: bool)
    ensures var r := Skipped(input, skip); |r| <= |input| && r == input[|input| - |r|..]
  {
  }

  /** Whether reading `input` to its end stops right after a line that a lone '\r'
      closed, so that the reader then owes the skip of a '\n'. */
  predicate EndsOnReturn(input: seq<char>)
    decreases |input|
  {
    match ReadLine(input)
    case Line(_, rest) => if |rest| == 0 then input[|input| - 1] == '\r' else EndsOnReturn(rest)
    case _ => false
  }

  /** The skip the reader owes once `input` has been read, starting from `skip`;
      reading nothing leaves it as it was. */
  function SkipAfter(input: seq<char>, skip: bool): bool {
    if |input| == 0 then skip else EndsOnReturn(Skipped(input, skip))
  }

  /** A read that reaches the prompt owes no skip afterwards. */
  lemma {:induction false} PromptOwesNoSkip(input: seq<char>, ending: Ending)
    requires Decode(input, ending).stop == AtPrompt
    ensures !EndsOnReturn(input)
    decreases |input|
  {
    match ReadLine(input)
    case Prompt(_) =>
    case Exhausted =>
    case Line(_, rest) =>
      PromptOwesNoSkip(rest, ending);
  }

  /** A body owes a skip exactly when it has lines and they end at a lone '\r'. */
  lemma {:induction false} BodyEndsOnReturn(lines: seq<string>, eol: string)
    requires LineEnd(eol) && DataLines(lines)
    ensures EndsOnReturn(Body(lines, eol)) <==> |lines| > 0 && eol == "\r"
    decreases |lines|
  {
    if |lines| > 0 {
      var more := Body(lines[1..], eol);
      assert Body(lines, eol) == lines[0] + eol + more;
      if |lines| > 1 {
        AfterLineNoFeed(lines[1..], eol, []);
        assert more + [] == more;
        BodyEndsOnReturn(lines[1..], eol);
      }
      ReadDataLine(lines[0], eol, more);
      if |lines| == 1 {
        assert Body(lines, eol)[|Body(lines, eol)| - 1] == eol[|eol| - 1];
      }
    }
  }

  /** A framed response is read as it stands, whatever skip is owed, and owes none
      afterwards. */
  lemma FrameOwesNoSkip(lines: seq<string>, eol: string, tail: seq<char>, skip: bool)
    requires LineEnd(eol) && DataLines(lines)
    ensures Skipped(Frame(lines, eol) + tail, skip) == Frame(lines, eol) + tail
    ensures !SkipAfter(Frame(lines, eol) + tail, skip)
  {
    var input := Frame(lines, eol) + tail;
    if |lines| > 0 {
      AfterLineNoFeed(lines, eol, Sentinel + tail);
      assert input == Body(lines, eol) + (Sentinel + tail);
    } else {
      assert input[0] == '#';
    }
    DecodeFrame(lines, eol, tail, Silence);
    PromptOwesNoSkip(input, Silence);
  }

  /** A body of data lines followed by `rest` decodes as its lines and then what
      the next read sees of `rest` once the body has been read (the skip it owes is
      given by `BodyEndsOnReturn`): the skip a lone '\r' leaves is honoured, so
      "\r" and "\n" read apart end one line, as "\r\n" read together does. */
  lemma {:induction false} DecodeSplit(lines: seq<string>, eol: string, rest: seq<char>, ending: Ending)
    requires LineEnd(eol) && DataLines(lines)
    ensures var d := Decode(Skipped(rest, |lines| > 0 && eol == "\r"), ending);
      Decode(Body(lines, eol) + rest, ending) == Decoded(lines + d.lines, d.rest, d.stop)
    decreases |lines|
  {
    if |lines| == 0 {
      var d := Decode(rest, ending);
      assert Body(lines, eol) + rest == rest;
      assert lines + d.lines == d.lines;
    } else if |lines| == 1 {
      DecodeLastLine(lines, eol, rest, ending);
    } else {
      DecodeSplit(lines[1..], eol, rest, ending);
      DecodeFirstLine(lines, eol, rest, ending);
    }
  }

  /** `DecodeSplit` for a body of one line: that line, then what the next read
      sees of `rest`. */
  lemma DecodeLastLine(lines: seq<string>, eol: string, rest: seq<char>, ending: Ending)
    requires LineEnd(eol) && DataLines(lines) && |lines| == 1
    ensures var d := Decode(Skipped(rest, eol == "\r"), ending);
      Decode(Body(lines, eol) + rest, ending) == Decoded(lines + d.lines, d.rest, d.stop)
  {
    var d := Decode(Skipped(rest, eol == "\r"), ending);
    var after := FirstLineRead(lines, eol, rest);
    DecodeLineStep(Body(lines, eol) + rest, ending);
    assert lines[1..] + d.lines == d.lines;
    ConsAppend(lines, d.lines);
  }

  /** `DecodeSplit`'s step: the first line of a longer body, then what the remaining
      lines and `rest` decode to. */
  lemma DecodeFirstLine(lines: seq<string>, eol: string, rest: seq<char>, ending: Ending)
    requires LineEnd(eol) && DataLines(lines) && |lines| > 1
    requires var d := Decode(Skipped(rest, eol == "\r"), ending);
      Decode(Body(lines[1..], eol) + rest, ending) == Decoded(lines[1..] + d.lines, d.rest, d.stop)
    ensures var d := Decode(Skipped(rest, eol == "\r"), ending);
      Decode(Body(lines, eol) + rest, ending) == Decoded(lines + d.lines, d.rest, d.stop)
  {
    var d := Decode(Skipped(rest, eol == "\r"), ending);
    var after := FirstLineRead(lines, eol, rest);
    DecodeLineStep(Body(lines, eol) + rest, ending);
    ConsAppend(lines, d.lines);
  }

  /** The first line of a body followed by `rest` is read as itself; reading goes
      on with the remaining lines, or, after the last line, with what the next
      read sees of `rest`. */
  lemma FirstLineRead(lines: seq<string>, eol: string, rest: seq<char>) returns (after: seq<char>)
    requires LineEnd(eol) && DataLines(lines) && |lines| > 0
    ensures ReadLine(Body(lines, eol) + rest) == Line(lines[0], after)
    ensures |lines| > 1 ==> after == Body(lines[1..], eol) + rest
    ensures |lines| == 1 ==> after == Skipped(rest, eol == "\r")
  {
    BodyCons(lines, eol, rest);
    if |lines| > 1 {
      after := Body(lines[1..], eol) + rest;
      AfterLineNoFeed(lines[1..], eol, rest);
      ReadDataLine(lines[0], eol, after);
    } else {
      assert Body(lines[1..], eol) + rest == rest;
      after := LastLineRead(lines[0], eol, rest);
    }
  }

  /** A last line is read as itself, and reading goes on with what the next read
      sees of `rest`: a '\n' right after a lone '\r' belongs to the terminator. */
  lemma LastLineRead(line: string, eol: string, rest: seq<char>) returns (after: seq<char>)
    requires LineEnd(eol) && DataLine(line)
    ensures after == Skipped(rest, eol == "\r")
    ensures ReadLine(line + eol + rest) == Line(line, after)
  {
    after := Skipped(rest, eol == "\r");
    if eol == "\r" && |rest| > 0 && rest[0] == '\n' {
      CarriageReturnThenFeed(line, rest);
    } else {
      ReadDataLine(line, eol, rest);
    }
  }

  /** A lone '\r' followed by input that starts with '\n' reads as "\r\n". */
  lemma CarriageReturnThenFeed(line: string, rest: seq<char>)
    requires DataLine(line) && |rest| > 0 && rest[0] == '\n'
    ensures ReadLine(line + "\r" + rest) == Line(line, rest[1..])
  {
    assert line + "\r" + rest == line + "\r\n" + rest[1..];
    ReadDataLine(line, "\r\n", rest[1..]);
  }

  /** Decoding input that starts with a line: that line, then what the rest decodes to. */
  lemma DecodeLineStep(input: seq<char>, ending: Ending)
    requires ReadLine(input).Line?
    ensures var d := Decode(ReadLine(input).rest, ending);
      Decode(input, ending) == Decoded([ReadLine(input).text] + d.lines, d.rest, d.stop)
  {
  }

  /** A response framed by the prompt decodes to exactly its lines, in order; the
      prompt is consumed and nothing after it is read. */
  lemma DecodeFrame(lines: seq<string>, eol: string, tail: seq<char>, ending: Ending)
    requires LineEnd(eol) && DataLines(lines)
    ensures Decode(Frame(lines, eol) + tail, ending) == Decoded(lines, tail, AtPrompt)
  {
    var rest := Sentinel + tail;
    assert Frame(lines, eol) + tail == Body(lines, eol) + rest;
    assert rest[2..] == tail;
    DecodeBody(lines, eol, rest, ending);
    assert lines + [] == lines;
  }

  /** A response beginning with the prompt has no lines; exactly two characters are consumed. */
  lemma DecodePromptFirst(input: seq<char>, ending: Ending)
    requires AtSentinel(input)
    ensures Decode(input, ending) == Decoded([], input[2..], AtPrompt)
  {
  }

  /** Lines that arrive without a prompt are all returned when the input runs out;
      the stop records the timeout or the I/O failure. */
  lemma DecodeUnfinished(lines: seq<string>, eol: string, ending: Ending)
    requires LineEnd(eol) && DataLines(lines)
    ensures Decode(Body(lines, eol), ending) == Decoded(lines, [], EndOf(ending))
  {
    assert Body(lines, eol) + [] == Body(lines, eol);
    assert ReadLine([]) == Exhausted;
    DecodeBody(lines, eol, [], ending);
    assert lines + [] == lines;
  }

  /** A prompt or a line that `readLine` finds in `a` (with input left over) is
      found the same way whatever arrives after `a`. */
  lemma ReadLineExtend(a: seq<char>, b: seq<char>)
    requires ReadLine(a).Prompt? || (ReadLine(a).Line? && |ReadLine(a).rest| > 0)
    ensures ReadLine(a + b) == (match ReadLine(a)
                                case Prompt(rest) => Prompt(rest + b)
                                case Line(text, rest) => Line(text, rest + b)
                                case Exhausted => Exhausted)
  {
    if ReadLine(a).Prompt? {
      assert (a + b)[..2] == a[..2];
      assert (a + b)[2..] == a[2..] + b;
    } else {
      ReadLineExtendLine(a, b);
    }
  }

  /** The line case of `ReadLineExtend`. */
  lemma ReadLineExtendLine(a: seq<char>, b: seq<char>)
    requires ReadLine(a).Line? && |ReadLine(a).rest| > 0
    ensures ReadLine(a + b) == Line(ReadLine(a).text, ReadLine(a).rest + b)
  {
    var text, rest := ReadLine(a).text, ReadLine(a).rest;
    var n := |text|;
    var ab := a + b;
    assert ab[..n] == text;
    assert forall j :: 2 <= j < n ==> !IsBreak(ab[j]) by {
      forall j | 2 <= j < n ensures !IsBreak(ab[j]) {
        assert ab[j] == a[j];
      }
    }
    assert n + 1 < |a|;
    assert ab[n] == a[n] && ab[n + 1] == a[n + 1];
    assert BreakLength(ab, n) == BreakLength(a, n);
    assert ab[n + BreakLength(a, n)..] == rest + b;
    LineThenReads(ab, text, rest + b);
  }

  /** `readLine` returns exactly the line that the input starts with. */
  lemma LineThenReads(input: seq<char>, text: string, rest: seq<char>)
    requires LineThen(input, text, rest)
    ensures ReadLine(input) == Line(text, rest)
  {
    var n := |text|;
    assert input[0] == text[0] && input[1] == text[1];
    assert forall j :: 0 <= j < n - 2 ==> !IsBreak(input[2..][j]) by {
      forall j | 0 <= j < n - 2 ensures !IsBreak(input[2..][j]) {
        assert input[2..][j] == input[j + 2];
      }
    }
    assert input[2..][n - 2] == input[n];
    LineBreakAt(input[2..], n - 2);
  }

  /** Decoding stops at the prompt without looking past it: once `a` holds a
      complete response, what follows and how the input would end change nothing
      but the unread remainder. */
  lemma {:induction false} DecodeExtend(a: seq<char>, b: seq<char>, e: Ending, e': Ending)
    requires Decode(a, e).stop == AtPrompt
    ensures Decode(a + b, e') == Decoded(Decode(a, e).lines, Decode(a, e).rest + b, AtPrompt)
    decreases |a|
  {
    match ReadLine(a)
    case Prompt(rest) =>
      ReadLineExtend(a, b);
    case Exhausted =>
    case Line(text, rest) =>
      assert |rest| > 0 by {
        assert |rest| == 0 ==> ReadLine(rest).Exhausted?;
      }
      ReadLineExtend(a, b);
      DecodeExtend(rest, b, e, e');
  }

  /** A line that is too short for the two-character read is merged with the next
      one: an empty line followed by "OK" decodes as the single line "\nOK". */
  lemma ShortLineMerges()
    ensures Decode("\nOK\n# ", Silence) == Decoded(["\nOK"], [], AtPrompt)
  {
    var input := "\nOK\n# ";
    assert input[..2] == "\nO";
    assert input[2..] == "K\n# ";
    assert LineBreak("K\n# ") == 1;
    assert input[..3] == "\nOK";
    assert input[4..] == "# ";
    assert ReadLine(input) == Line("\nOK", "# ");
    assert ReadLine("# ") == Prompt([]);
  }

  /** `sendData`'s newline rule: the text sent is `data` with a line feed appended
      exactly when it does not already end with one. */
  function EnsureNewline(data: string): (r: string)
    ensures EndsWith(r, "\n")
    ensures StartsWith(r, data) && |r| <= |data| + 1
    ensures r == data <==> EndsWith(data, "\n")
  {
    if EndsWith(data, "\n") then data else data + "\n"
  }

  /** Adding the newline twice adds it once. */
  lemma EnsureNewlineIdempotent(data: string)
    ensures EnsureNewline(EnsureNewline(data)) == EnsureNewline(data)
  {
  }

  /** `String.format("%s %s\n", verb, argument)`: the command lines of the wrappers. */
  function Command(verb: string, argument: string): string {
    verb + " " + argument + "\n"
  }

  /** A formatted command already ends with its newline, so it is sent as formatted. */
  lemma CommandLine(verb: string, argument: string)
    ensures EnsureNewline(Command(verb, argument)) == Command(verb, argument)
  {
    assert EndsWith(Command(verb, argument), "\n");
  }

  /** A formatted command is sent unchanged, and (when the argument has no line
      break) the frontend reads it as the single line "verb argument". */
  lemma CommandIsOneLine(verb: string, argument: string)
    requires forall i :: 0 <= i < |verb| ==> !IsBreak(verb[i])
    requires forall i :: 0 <= i < |argument| ==> !IsBreak(argument[i])
    ensures EnsureNewline(Command(verb, argument)) == Command(verb, argument)
    ensures var c := Command(verb, argument);
      LineBreak(c) == |c| - 1 && c[..|c| - 1] == verb + " " + argument
  {
    var c := Command(verb, argument);
    var line := verb + " " + argument;
    assert c == line + "\n";
    assert forall j :: 0 <= j < |line| ==> !IsBreak(c[j]) by {
      forall j | 0 <= j < |line| ensures !IsBreak(c[j]) {
        if j < |verb| {
          assert c[j] == verb[j];
        } else if j > |verb| {
          assert c[j] == argument[j - |verb| - 1];
        }
      }
    }
    LineBreakAt(c, |line|);
    CommandLine(verb, argument);
  }
}

=== FILE: myth_session.dfy ===
/** MythCom's session with one MythTV frontend: the status code and message, which
    of the output stream, input stream and socket are open, the frontend, the last
    reported location, the input waiting on the socket, everything written to it,
    the notifications sent to the listener, and the status-update timer.

    Everything the socket does is a parameter: whether a write or a close fails,
    what the frontend sends back, and how a read ends when the available input
    runs out. Each operation is a function from the session before to the session
    after. */
module MythSession {
  import opened Wrappers
  import opened LineCodec
  import opened UpdateTimer
  import Strings

  const DEFAULT_MYTH_PORT: int := 6546
  const STATUS_DISCONNECTED: int := 0
  const STATUS_CONNECTED: int := 1
  const STATUS_CONNECTING: int := 3
  const STATUS_ERROR: int := 99

  /** A frontend the user picked: display name, host and port. */
  datatype Frontend = Frontend(name: string, address: string, port: int)

  /** A notification to the status listener, in the order the session sends them. */
  datatype Event =
    | StatusChanged(message: string, code: int)
    | LocationChanged(location: string)

  datatype Session = Session(
    code: int,                    // _statusCode
    status: Option<string>,       // _status
    output: bool,                 // _outputStream != null
    input: bool,                  // _inputStream != null
    socket: bool,                 // _socket != null
    frontend: Option<Frontend>,   // _frontend
    lastLocation: Option<string>, // _lastLocation
    pending: seq<char>,           // characters available on the input stream
    skipLF: bool,                 // the reader owes the skip of a '\n' after a lone '\r'
    sent: seq<char>,              // everything written to the output stream
    events: seq<Event>,           // notifications sent to the listener
    timer: Timer)                 // _timer and timerTaskCheckStatus

  /** How the socket behaves while one operation runs: the message of the
      IOException a write raises, if any, and which handle's `close` raises one. */
  datatype Env = Env(writeError: Option<string>, closeFault: CloseFault)

  /** The handle whose `close` fails, if any; closing it fails every time. */
  datatype CloseFault = NoCloseFault | OutputCloseFails | InputCloseFails | SocketCloseFails

  /** One command exchange: the socket's behaviour, what the frontend sends back
      after the command, and how reading ends once that input runs out. */
  datatype Wire = Wire(env: Env, reply: seq<char>, ending: Ending)

  /** The status codes the source defines. */
  predicate KnownCode(code: int) {
    code == STATUS_DISCONNECTED || code == STATUS_CONNECTED || code == STATUS_CONNECTING || code == STATUS_ERROR
  }

  /** Every status notification carries one of the defined codes. */
  predicate EventOk(e: Event) {
    e.StatusChanged? ==> KnownCode(e.code)
  }

  /** `IsConnected`. */
  predicate IsConnected(s: Session) {
    s.code == STATUS_CONNECTED
  }

  /** `IsConnecting`. */
  predicate IsConnecting(s: Session) {
    s.code == STATUS_CONNECTING
  }

  /** The states the session can reach: the status code is one that is ever
      written, a connected session has both streams, the socket and a frontend,
      input waits only on an open input stream, notifications carry defined codes,
      and the timer's bookkeeping is consistent. */
  predicate Valid(s: Session) {
    && (s.code == STATUS_DISCONNECTED || s.code == STATUS_CONNECTED || s.code == STATUS_ERROR)
    && (IsConnected(s) ==> s.output && s.input && s.socket && s.frontend.Some?)
    && (!s.input ==> s.pending == [])
    && (forall i :: 0 <= i < |s.events| ==> EventOk(s.events[i]))
    && TimerValid(s.timer)
  }

  /** `later` is `earlier` with notifications appended. */
  predicate Extends(earlier: seq<Event>, later: seq<Event>) {
    |earlier| <= |later| && later[..|earlier|] == earlier
  }

  /** `later` is `earlier` with only error reports appended. */
  predicate AddsErrors(earlier: seq<Event>, later: seq<Event>) {
    && Extends(earlier, later)
    && forall i :: |earlier| <= i < |later| ==> later[i].StatusChanged? && later[i].code == STATUS_ERROR
  }

  /** Error reports appended after the error report `e` are error reports appended
      after `earlier`, with `e` first. */
  lemma ErrorsAppended(earlier: seq<Event>, e: Event, later: seq<Event>)
    requires AddsErrors(earlier + [e], later) && e.StatusChanged? && e.code == STATUS_ERROR
    ensures AddsErrors(earlier, later) && later[|earlier|] == e
  {
    assert later[..|earlier|] == later[..|earlier| + 1][..|earlier|];
  }

  /** `Extends` is transitive. */
  lemma ExtendsTransitive(a: seq<Event>, b: seq<Event>, c: seq<Event>)
    requires Extends(a, b) && Extends(b, c)
    ensures Extends(a, c)
  {
    assert c[..|a|] == c[..|b|][..|a|];
  }

  /** `AddsErrors` is transitive. */
  lemma ErrorsTransitive(a: seq<Event>, b: seq<Event>, c: seq<Event>)
    requires AddsErrors(a, b) && AddsErrors(b, c)
    ensures AddsErrors(a, c)
  {
    ExtendsTransitive(a, b, c);
    forall i | |b| <= i < |c| ensures c[i].StatusChanged? && c[i].code == STATUS_ERROR {
    }
    forall i | |a| <= i < |b| ensures c[i] == b[i] {
      assert c[i] == c[..|b|][i];
    }
  }

  /** Error reports followed by events whose status reports are all "Connected"
      (and exist only when `ok`): the whole extension reports only errors and,
      when `ok`, "Connected". */
  lemma ErrorsThen(a: seq<Event>, b: seq<Event>, c: seq<Event>, ok: bool)
    requires AddsErrors(a, b) && Extends(b, c)
    requires forall i :: |b| <= i < |c| && c[i].StatusChanged? ==> ok && c[i].code == STATUS_CONNECTED
    ensures Extends(a, c)
    ensures forall i :: |a| <= i < |c| && c[i].StatusChanged? ==>
      c[i].code == STATUS_ERROR || (ok && c[i].code == STATUS_CONNECTED)
  {
    ExtendsTransitive(a, b, c);
    forall i | |a| <= i < |c| && c[i].StatusChanged?
      ensures c[i].code == STATUS_ERROR || (ok && c[i].code == STATUS_CONNECTED)
    {
      if i < |b| {
        assert c[i] == c[..|b|][i] == b[i];
      }
    }
  }

  /** The constructor: disconnected, nothing open, nothing sent. */
  function Init(): (s: Session)
    ensures Valid(s) && !IsConnected(s) && !IsConnecting(s)
    ensures !s.output && !s.input && !s.socket && s.sent == [] && s.events == []
  {
    Session(STATUS_DISCONNECTED, None, false, false, false, None, None, [], false, [], [], NoTimer)
  }

  /** The frontend's name, as the status messages use it; a session without a
      frontend (which the source would dereference as null) gives "". */
  function Name(s: Session): string {
    match s.frontend
    case Some(f) => f.name
    case None => ""
  }

  /** The frontend's address, as the error messages use it; "" without a frontend. */
  function Address(s: Session): string {
    match s.frontend
    case Some(f) => f.address
    case None => ""
  }

  /** `setStatus`: records the message and notifies the listener; the status code
      is left alone. */
  function SetStatus(s: Session, message: string, code: int): (r: Session)
    ensures r.code == s.code && r.status == Some(message)
    ensures r.events == s.events + [StatusChanged(message, code)]
    ensures r.(status := s.status, events := s.events) == s
    ensures Valid(s) && KnownCode(code) ==> Valid(r)
  {
    s.(status := Some(message), events := s.events + [StatusChanged(message, code)])
  }

  /** `setMythTvLocation`: notifies the listener of a new location. */
  function SetLocation(s: Session, location: string): (r: Session)
    ensures r.events == s.events + [LocationChanged(location)]
    ensures r.(events := s.events) == s
    ensures Valid(s) ==> Valid(r)
  {
    s.(events := s.events + [LocationChanged(location)])
  }

  /** The first part of `sendData`: input already waiting (`ready()`) is read as a
      response and thrown away. Reading happens only on a connected session with an
      input stream (`readResult`), and the stale input ends in a read timeout. */
  function Drain(s: Session): (r: Session)
    ensures !(IsConnected(s) && s.input) ==> r == s
    ensures r.(pending := s.pending, skipLF := s.skipLF) == s
    ensures |r.pending| <= |s.pending| && r.pending == s.pending[|s.pending| - |r.pending|..]
    ensures Valid(s) ==> Valid(r)
  {
    if IsConnected(s) && s.input && |s.pending| > 0 then Discard(s)
    else
      assert s.pending[|s.pending| - |s.pending|..] == s.pending;
      s
  }

  /** The waiting input read as one response and thrown away; the reader's skip is
      what that read leaves. */
  function Discard(s: Session): (r: Session)
    requires s.input
    ensures r.(pending := s.pending, skipLF := s.skipLF) == s
    ensures |r.pending| <= |s.pending| && r.pending == s.pending[|s.pending| - |r.pending|..]
    ensures r.skipLF == SkipAfter(s.pending, s.skipLF)
    ensures Valid(s) ==> Valid(r)
  {
    var rest := Unread(s.pending, s.skipLF);
    var skip := SkipAfter(s.pending, s.skipLF);
    PendingReplaced(s, rest, skip);
    s.(pending := rest, skipLF := skip)
  }

  /** The input the next read sees: the waiting characters, less a '\n' the reader
      still owes a skip for. */
  function Waiting(s: Session): (r: seq<char>)
    ensures |r| <= |s.pending| && r == s.pending[|s.pending| - |r|..]
    ensures !s.skipLF ==> r == s.pending
  {
    Skipped(s.pending, s.skipLF)
  }

  /** What is left of the waiting input once one response has been read from it
      and the read has timed out. */
  function Unread(pending: seq<char>, skip: bool): (rest: seq<char>)
    ensures |rest| <= |pending| && rest == pending[|pending| - |rest|..]
  {
    SkippedSuffix(pending, skip);
    UnreadSuffix(pending, Skipped(pending, skip));
    Decode(Skipped(pending, skip), Silence).rest
  }

  /** Reading a suffix of the waiting input leaves a suffix of it unread. */
  lemma UnreadSuffix(pending: seq<char>, seen: seq<char>)
    requires |seen| <= |pending| && seen == pending[|pending| - |seen|..]
    ensures var rest := Decode(seen, Silence).rest; |rest| <= |pending| && rest == pending[|pending| - |rest|..]
  {
    DecodeRestSuffix(seen, Silence);
    SuffixOfSuffix(pending, seen, Decode(seen, Silence).rest);
  }

  /** Replacing the unread input of a session with an input stream keeps it valid. */
  lemma PendingReplaced(s: Session, rest: seq<char>, skip: bool)
    requires s.input
    ensures s.(pending := rest, skipLF := skip).(pending := s.pending, skipLF := s.skipLF) == s
    ensures Valid(s) ==> Valid(s.(pending := rest, skipLF := skip))
  {
    var r := s.(pending := rest, skipLF := skip);
    assert r.events == s.events && r.timer == s.timer && r.code == s.code;
  }

  /** The closing part of `Disconnect`: output stream, input stream, then socket,
      each closed and dropped if present. The first `close` that fails ends the
      sequence with the "Disconnect I/O error" status, and the later handles stay. */
  function Release(s: Session, fault: CloseFault): (r: Session)
    ensures r.code == s.code && r.sent == s.sent && r.lastLocation == s.lastLocation
    ensures r.frontend == s.frontend && r.timer == s.timer
    ensures fault == NoCloseFault ==> !r.output && !r.input && !r.socket && r.pending == [] && r.events == s.events
    ensures r.events == s.events || r.events == s.events + [StatusChanged("Disconnect I/O error", STATUS_ERROR)]
    ensures Valid(s) && !IsConnected(s) ==> Valid(r)
  {
    if s.output && fault == OutputCloseFails then
      SetStatus(s, "Disconnect I/O error", STATUS_ERROR)
    else
      var s1 := s.(output := false);
      if s1.input && fault == InputCloseFails then
        SetStatus(s1, "Disconnect I/O error", STATUS_ERROR)
      else
        var s2 := s1.(input := false, pending := []);
        if s2.socket && fault == SocketCloseFails then
          SetStatus(s2, "Disconnect I/O error", STATUS_ERROR)
        else
          s2.(socket := false)
  }

  /** `Disconnect` as the source writes it: the status code is reset before the
      connectedness test that guards sending "exit", so that test reads the code
      just written and "exit" is never sent. */
  function DisconnectAsWritten(s: Session, env: Env): (r: Session)
    ensures r.code == STATUS_DISCONNECTED
    ensures r.sent == s.sent
    ensures r.lastLocation == s.lastLocation && r.frontend == s.frontend && r.timer == s.timer
    ensures env.closeFault == NoCloseFault ==>
      !r.output && !r.input && !r.socket && r.pending == [] && r.events == s.events
    ensures r.events == s.events || r.events == s.events + [StatusChanged("Disconnect I/O error", STATUS_ERROR)]
    ensures AddsErrors(s.events, r.events)
    ensures Valid(s) ==> Valid(r)
  {
    var cleared := s.(code := STATUS_DISCONNECTED);
    // Line 128's `IsConnected()` sees the code written at line 124.
    var exitSent := IsConnected(cleared);
    Release(cleared.(sent := cleared.sent + (if exitSent then "exit\n" else [])), env.closeFault)
  }

  /** `Disconnect` as intended: whether the session was connected is captured on
      entry, the code is reset, and "exit" is sent if it was; then the handles are
      closed. As the code is already reset, `sendData` reads no stale input first,
      and a failing "exit" write runs the nested `Disconnect` on a session that is
      already disconnected, which only closes the handles. */
  function Disconnect(s: Session, env: Env): (r: Session)
    ensures r.code == STATUS_DISCONNECTED
    ensures r.lastLocation == s.lastLocation && r.frontend == s.frontend && r.timer == s.timer
    ensures env.closeFault == NoCloseFault ==> !r.output && !r.input && !r.socket && r.pending == []
    ensures AddsErrors(s.events, r.events)
    ensures !IsConnected(s) || env.writeError.Some? ==> r.sent == s.sent
    ensures IsConnected(s) && s.output && env.writeError.None? ==> r.sent == s.sent + "exit\n"
    ensures Valid(s) ==> Valid(r)
  {
    var wasConnected := IsConnected(s);
    var cleared := s.(code := STATUS_DISCONNECTED);
    var said := if wasConnected then SendData(cleared, "exit\n", env) else cleared;
    var r := Release(said, env.closeFault);
    assert AddsErrors(said.events, r.events);
    ErrorsTransitive(s.events, said.events, r.events);
    r
  }

  /** The catch block of `sendData`: the write failed with message `m`; the error
      is reported with the frontend's address and the session disconnects, through
      `Disconnect` as written, which sends nothing. */
  function WriteFailed(s: Session, m: string, env: Env): (r: Session)
    requires env.writeError == Some(m)
    ensures r.code == STATUS_DISCONNECTED && r.sent == s.sent
    ensures r.lastLocation == s.lastLocation && r.frontend == s.frontend && r.timer == s.timer
    ensures var err := StatusChanged(m + ": " + Address(s), STATUS_ERROR);
      || r.events == s.events + [err]
      || r.events == s.events + [err, StatusChanged("Disconnect I/O error", STATUS_ERROR)]
    ensures env.closeFault == NoCloseFault ==> r.events == s.events + [StatusChanged(m + ": " + Address(s), STATUS_ERROR)]
    ensures AddsErrors(s.events + [StatusChanged(m + ": " + Address(s), STATUS_ERROR)], r.events)
    ensures AddsErrors(s.events, r.events)
    ensures Valid(s) ==> Valid(r)
  {
    var failed := DisconnectAsWritten(SetStatus(s, m + ": " + Address(s), STATUS_ERROR), env);
    ErrorsAppended(s.events, StatusChanged(m + ": " + Address(s), STATUS_ERROR), failed.events);
    failed
  }

  /** `sendData`: drain stale input, add a missing newline, and write. A failed
      write reports the error and disconnects. A missing output stream (which the
      source would dereference as null) writes nothing. */
  function SendData(s: Session, data: string, env: Env): (r: Session)
    ensures r.lastLocation == s.lastLocation && r.frontend == s.frontend && r.timer == s.timer
    ensures env.writeError.None? && s.output ==> r == Drain(s).(sent := s.sent + EnsureNewline(data))
    ensures env.writeError.Some? ==> r.sent == s.sent
    ensures AddsErrors(s.events, r.events)
    ensures env.writeError.Some? && s.output ==>
      && r.code == STATUS_DISCONNECTED
      && |r.events| > |s.events|
      && r.events[|s.events|] == StatusChanged(env.writeError.value + ": " + Address(s), STATUS_ERROR)
      && (env.closeFault == NoCloseFault ==>
            r.events == s.events + [StatusChanged(env.writeError.value + ": " + Address(s), STATUS_ERROR)])
    ensures r.code == s.code || r.code == STATUS_DISCONNECTED
    ensures Valid(s) ==> Valid(r)
  {
    var drained := Drain(s);
    assert Address(drained) == Address(s) && drained.events == s.events && drained.output == s.output;
    Write(drained, data, env)
  }

  /** The write of `sendData`, after the drain: the data with the newline rule, or
      the catch block when the write fails. */
  function Write(s: Session, data: string, env: Env): (r: Session)
    ensures r.lastLocation == s.lastLocation && r.frontend == s.frontend && r.timer == s.timer
    ensures env.writeError.None? && s.output ==> r == s.(sent := s.sent + EnsureNewline(data))
    ensures env.writeError.Some? ==> r.sent == s.sent
    ensures AddsErrors(s.events, r.events)
    ensures env.writeError.Some? && s.output ==>
      && r.code == STATUS_DISCONNECTED
      && |r.events| > |s.events|
      && r.events[|s.events|] == StatusChanged(env.writeError.value + ": " + Address(s), STATUS_ERROR)
      && (env.closeFault == NoCloseFault ==>
            r.events == s.events + [StatusChanged(env.writeError.value + ": " + Address(s), STATUS_ERROR)])
    ensures r.code == s.code || r.code == STATUS_DISCONNECTED
    ensures Valid(s) ==> Valid(r)
  {
    if !s.output then s
    else
      match env.writeError
      case None => s.(sent := s.sent + EnsureNewline(data))
      case Some(m) => WriteFailed(s, m, env)
  }

  /** `readResult` and the `readLine` calls it makes: on a connected session with
      an input stream, the lines up to the prompt or up to the end of the available
      input. A read that times out just ends the list. A read that fails reports
      the error with the frontend's address and disconnects; the lines read before
      it are still returned. Reading honours and updates the reader's owed skip of a
      '\n' after a lone '\r'. */
  function ReadResult(s: Session, ending: Ending, env: Env): (r: (Session, seq<string>))
    ensures !(IsConnected(s) && s.input) ==> r == (s, [])
    ensures IsConnected(s) && s.input ==> r.1 == Decode(Waiting(s), ending).lines
    ensures IsConnected(s) && s.input && !Decode(Waiting(s), ending).stop.Failed? ==>
      r.0 == s.(pending := Decode(Waiting(s), ending).rest, skipLF := SkipAfter(s.pending, s.skipLF))
    ensures IsConnected(s) && s.input && Decode(Waiting(s), ending).stop.Failed? ==>
      && r.0.code == STATUS_DISCONNECTED
      && AddsErrors(s.events + [StatusChanged(Decode(Waiting(s), ending).stop.reason + ": " + Address(s), STATUS_ERROR)], r.0.events)
    ensures ending == Silence ==> r.0.code == s.code && r.0.events == s.events
    ensures r.0.code == s.code || r.0.code == STATUS_DISCONNECTED
    ensures r.0.sent == s.sent
    ensures r.0.lastLocation == s.lastLocation && r.0.frontend == s.frontend && r.0.timer == s.timer
    ensures AddsErrors(s.events, r.0.events)
    ensures Valid(s) ==> Valid(r.0)
  {
    if IsConnected(s) && s.input then
      var d := Decode(Waiting(s), ending);
      var skip := SkipAfter(s.pending, s.skipLF);
      match d.stop
      case Failed(m) => (ReadFailed(s, m, env), d.lines)
      case _ => (s.(pending := d.rest, skipLF := skip), d.lines)
    else (s, [])
  }

  /** The catch block of `readLine`: the read failed with message `m` after all
      available input was consumed; the error is reported with the frontend's
      address and the session disconnects, through `Disconnect` as written, which
      sends nothing. */
  function ReadFailed(s: Session, m: string, env: Env): (r: Session)
    ensures r.code == STATUS_DISCONNECTED && r.sent == s.sent
    ensures env.closeFault == NoCloseFault ==>
      r.events == s.events + [StatusChanged(m + ": " + Address(s), STATUS_ERROR)] && !r.input && r.pending == []
    ensures r.lastLocation == s.lastLocation && r.frontend == s.frontend && r.timer == s.timer
    ensures AddsErrors(s.events + [StatusChanged(m + ": " + Address(s), STATUS_ERROR)], r.events)
    ensures AddsErrors(s.events, r.events)
    ensures Valid(s) ==> Valid(r)
  {
    var failed := DisconnectAsWritten(SetStatus(s.(pending := []), m + ": " + Address(s), STATUS_ERROR), env);
    ErrorsAppended(s.events, StatusChanged(m + ": " + Address(s), STATUS_ERROR), failed.events);
    failed
  }

  /** The acknowledgement `SendCommand` expects: a first line that is exactly "OK". */
  predicate Acknowledged(lines: seq<string>) {
    |lines| > 0 && lines[0] == "OK"
  }

  /** `SendCommand`: on a connected session, write the command, let the reply
      arrive, and read the response. With `okExpected`, a response that is empty
      or whose first line is not "OK" gives `None`; otherwise the whole response
      is returned. A session that is not connected writes nothing and gives `None`. */
  function SendCommand(s: Session, command: string, okExpected: bool, w: Wire): (r: (Session, Option<seq<string>>))
    ensures !IsConnected(s) ==> r == (s, None)
    ensures r.1.Some? && okExpected ==> Acknowledged(r.1.value)
    ensures IsConnected(s) && !okExpected ==> r.1.Some?
    ensures IsConnected(s) && s.output && w.env.writeError.None? ==> r.0.sent == s.sent + EnsureNewline(command)
    ensures w.env.writeError.Some? ==> r.0.sent == s.sent
    ensures r.0.code == s.code || r.0.code == STATUS_DISCONNECTED
    ensures r.0.lastLocation == s.lastLocation && r.0.frontend == s.frontend && r.0.timer == s.timer
    ensures AddsErrors(s.events, r.0.events)
    ensures Valid(s) ==> Valid(r.0)
  {
    if !IsConnected(s) then (s, None)
    else
      var written := SendData(s, command, w.env);
      var answered := if written.input then written.(pending := written.pending + w.reply) else written;
      var read := ReadResult(answered, w.ending, w.env);
      (read.0, if okExpected && !Acknowledged(read.1) then None else Some(read.1))
  }

  /** `SendKey`, for a key name or a single character: "key <key>", acknowledged. */
  function SendKey(s: Session, key: string, w: Wire): (r: Session)
    ensures !IsConnected(s) ==> r == s
    ensures Valid(s) ==> Valid(r)
  {
    SendCommand(s, Command("key", key), true, w).0
  }

  /** `SendQuery`: "query <query>", not acknowledged; the response lines. */
  function SendQuery(s: Session, query: string, w: Wire): (r: (Session, Option<seq<string>>))
    ensures !IsConnected(s) ==> r == (s, None)
    ensures IsConnected(s) ==> r.1.Some?
    ensures r.0.code == s.code || r.0.code == STATUS_DISCONNECTED
    ensures r.0.lastLocation == s.lastLocation && r.0.frontend == s.frontend && r.0.timer == s.timer
    ensures AddsErrors(s.events, r.0.events)
    ensures Valid(s) ==> Valid(r.0)
  {
    SendCommand(s, Command("query", query), false, w)
  }

  /** `checkMythTvLocation` as the source writes it: on a connected session, query
      the location; a non-empty answer posts the "Connected" status and, when the
      first line differs from the last location seen, a location notification;
      the first line then becomes the last location. The `null` answer, which
      only posts "Disconnected", cannot happen, as `SendQuery` never gives `None`
      on a connected session. */
  function CheckLocationAsWritten(s: Session, w: Wire): (r: Session)
    ensures !IsConnected(s) ==> r == s
    ensures r.code == s.code || r.code == STATUS_DISCONNECTED
    ensures r.frontend == s.frontend && r.timer == s.timer
    ensures Extends(s.events, r.events)
    ensures Valid(s) ==> Valid(r)
  {
    if IsConnected(s) && !IsConnecting(s) then
      var polled := SendQuery(s, "location", w);
      var r := Posted(polled.0, polled.1);
      ExtendsTransitive(s.events, polled.0.events, r.events);
      r
    else s
  }

  /** What the poll as written does with the query's answer: `null` posts
      "Disconnected"; a non-empty answer posts "Connected", whatever the session's
      state, and then the location bookkeeping for the first line. */
  function Posted(q: Session, answer: Option<seq<string>>): (r: Session)
    ensures answer == Some([]) ==> r == q
    ensures answer.Some? && |answer.value| > 0 ==> r.lastLocation == Some(answer.value[0])
    ensures answer.None? ==>
      r == q.(status := Some("Disconnected"), events := q.events + [StatusChanged("Disconnected", STATUS_DISCONNECTED)])
    ensures r == q.(status := r.status, events := r.events, lastLocation := r.lastLocation)
    ensures Extends(q.events, r.events)
    ensures Valid(q) ==> Valid(r)
  {
    match answer
    case None => SetStatus(q, "Disconnected", STATUS_DISCONNECTED)
    case Some(lines) =>
      if |lines| == 0 then q
      else Noticed(SetStatus(q, Name(q) + " - Connected", STATUS_CONNECTED), lines[0])
  }

  /** The location bookkeeping of a poll: notify when `location` differs from the
      last location seen (a session that has seen none always notifies), then
      remember it. */
  function Noticed(s: Session, location: string): (r: Session)
    ensures r.lastLocation == Some(location)
    ensures r.events == s.events + (if s.lastLocation != Some(location) then [LocationChanged(location)] else [])
    ensures r.(lastLocation := s.lastLocation, events := s.events) == s
    ensures Valid(s) ==> Valid(r)
  {
    var told := if s.lastLocation != Some(location) then SetLocation(s, location) else s;
    told.(lastLocation := Some(location))
  }

  /** The answer of a location poll, as intended: nothing for an empty answer;
      otherwise "Connected", only while the session is still connected, and then
      the location bookkeeping for the first line. */
  function Answered(q: Session, lines: seq<string>): (r: Session)
    ensures |lines| == 0 ==> r == q
    ensures |lines| > 0 ==> r.lastLocation == Some(lines[0])
    ensures r == q.(status := r.status, events := r.events, lastLocation := r.lastLocation)
    ensures Extends(q.events, r.events)
    ensures forall i :: |q.events| <= i < |r.events| && r.events[i].StatusChanged? ==>
      IsConnected(q) && r.events[i].code == STATUS_CONNECTED
    ensures Valid(q) ==> Valid(r)
  {
    if |lines| == 0 then q
    else
      var shown := if IsConnected(q) then SetStatus(q, Name(q) + " - Connected", STATUS_CONNECTED) else q;
      Noticed(shown, lines[0])
  }

  /** `checkMythTvLocation` as intended: as written, except that the "Connected"
      status is posted only while the session is still connected after the query.
      A query whose read failed has already disconnected and reported the error;
      the source then still posts "Connected" and hides that error. The source's
      branch for a `null` answer is not written out: `SendQuery` never answers
      `None` on a connected session. */
  function CheckLocation(s: Session, w: Wire): (r: Session)
    ensures !IsConnected(s) ==> r == s
    ensures r.code == s.code || r.code == STATUS_DISCONNECTED
    ensures r.frontend == s.frontend && r.timer == s.timer
    ensures Extends(s.events, r.events)
    ensures Valid(s) ==> Valid(r)
  {
    if IsConnected(s) && !IsConnecting(s) then
      var polled := SendQuery(s, "location", w);
      var r := Answered(polled.0, polled.1.GetOr([]));
      ExtendsTransitive(s.events, polled.0.events, r.events);
      r
    else s
  }

  /** A poll reports only errors, and "Connected" only when it leaves the session
      connected: the error of a failed read is never followed by "Connected". */
  lemma CheckLocationReports(s: Session, w: Wire)
    ensures var r := CheckLocation(s, w);
      forall i :: |s.events| <= i < |r.events| && r.events[i].StatusChanged? ==>
        r.events[i].code == STATUS_ERROR || (r.events[i].code == STATUS_CONNECTED && IsConnected(r))
  {
    if IsConnected(s) {
      var polled := SendQuery(s, "location", w);
      CheckLocationAnswers(s, w);
      var r := Answered(polled.0, polled.1.GetOr([]));
      ErrorsThen(s.events, polled.0.events, r.events, IsConnected(r));
    }
  }

  /** On a connected session a poll is its query followed by `Answered`. */
  lemma CheckLocationAnswers(s: Session, w: Wire)
    requires IsConnected(s)
    ensures var polled := SendQuery(s, "location", w);
      CheckLocation(s, w) == Answered(polled.0, polled.1.GetOr([]))
  {
  }

  /** The poll as written and as intended differ only when the query itself
      disconnects: while the session stays connected they are the same poll. */
  lemma PollsAgree(s: Session, w: Wire)
    requires IsConnected(s) && IsConnected(SendQuery(s, "location", w).0)
    ensures CheckLocationAsWritten(s, w) == CheckLocation(s, w)
  {
    var polled := SendQuery(s, "location", w);
    CheckLocationAnswers(s, w);
    assert CheckLocationAsWritten(s, w) == Posted(polled.0, polled.1);
    assert polled.1 == Some(polled.1.GetOr([]));
  }

  /** `SendJumpCommand`: "jump <point>", acknowledged, then a location poll on a
      second exchange. */
  function SendJump(s: Session, point: string, w: Wire, poll: Wire): (r: Session)
    ensures !IsConnected(s) ==> r == s
    ensures r.code == s.code || r.code == STATUS_DISCONNECTED
    ensures r.lastLocation == s.lastLocation || IsConnected(s)
    ensures Valid(s) ==> Valid(r)
  {
    CheckLocationAsWritten(SendCommand(s, Command("jump", point), true, w).0, poll)
  }

  /** `SendPlayCommand`: "play <command>", acknowledged, then a location poll on a
      second exchange. */
  function SendPlay(s: Session, command: string, w: Wire, poll: Wire): (r: Session)
    ensures !IsConnected(s) ==> r == s
    ensures r.code == s.code || r.code == STATUS_DISCONNECTED
    ensures r.lastLocation == s.lastLocation || IsConnected(s)
    ensures Valid(s) ==> Valid(r)
  {
    CheckLocationAsWritten(SendCommand(s, Command("play", command), true, w).0, poll)
  }

  /** What the connecting worker thread finds: a connected socket with its two
      streams and the input the frontend has already sent; a socket that is not
      connected afterwards; an unknown host; or an IOException with its message,
      together with whether the socket already reports itself closed. */
  datatype ConnectOutcome =
    | Opened(banner: seq<char>)
    | NotOpened
    | UnknownHost
    | IoFailure(reason: string, socketClosed: bool)

  /** The status message the worker leaves for the frontend `f`. */
  function ConnectMessage(f: Frontend, outcome: ConnectOutcome): string {
    match outcome
    case Opened(_) => f.name + " - Connected"
    case NotOpened => "Unknown error getting output stream."
    case UnknownHost => "Unknown host: " + f.address
    case IoFailure(reason, _) => "IO Except: " + reason + ": " + f.address
  }

  /** `Connect` with `connectSocket` run to completion: re-arm the timer with the
      configured interval, take the frontend, report "Connecting", make sure a
      socket exists, then let the worker set the code and message and post them.
      An existing connection is not closed first. */
  function Connect(s: Session, f: Frontend, interval: int, outcome: ConnectOutcome): (r: Session)
    ensures r.frontend == Some(f) && r.timer == Reschedule(s.timer, interval)
    ensures r.lastLocation == s.lastLocation && r.sent == s.sent
    ensures r.status == Some(ConnectMessage(f, outcome))
    ensures r.events == s.events + [StatusChanged("Connecting", STATUS_CONNECTING), StatusChanged(ConnectMessage(f, outcome), r.code)]
    ensures IsConnected(r) <==> outcome.Opened?
    ensures !outcome.Opened? ==> r.code == STATUS_ERROR
    ensures outcome.Opened? ==> r.output && r.input && r.socket && r.pending == outcome.banner && !r.skipLF
    ensures outcome.IoFailure? ==> !r.input && r.socket == outcome.socketClosed
    ensures Valid(s) ==> Valid(r)
  {
    var started := SetStatus(s.(timer := Reschedule(s.timer, interval), frontend := Some(f)), "Connecting", STATUS_CONNECTING).(socket := true);
    var message := ConnectMessage(f, outcome);
    var finished := ConnectWorker(started, message, outcome);
    SetStatus(finished, message, finished.code)
  }

  /** The worker thread of `connectSocket`: the code, the message and the handles
      it leaves behind. An opened socket gets both streams and a fresh reader; an
      IOException drops the input stream and keeps the socket only if it was
      already closed. */
  function ConnectWorker(q: Session, message: string, outcome: ConnectOutcome): (r: Session)
    requires q.socket
    ensures r.(code := q.code, status := q.status, output := q.output, input := q.input,
               socket := q.socket, pending := q.pending, skipLF := q.skipLF) == q
    ensures r.status == Some(message)
    ensures IsConnected(r) <==> outcome.Opened?
    ensures !outcome.Opened? ==> r.code == STATUS_ERROR
    ensures outcome.Opened? ==> r.output && r.input && r.socket && r.pending == outcome.banner && !r.skipLF
    ensures outcome.IoFailure? ==> !r.input && r.pending == [] && r.socket == outcome.socketClosed
    ensures !outcome.Opened? && !outcome.IoFailure? ==> r.input == q.input && r.pending == q.pending && r.socket == q.socket
    ensures Valid(q) && q.frontend.Some? ==> Valid(r)
  {
    match outcome
    case Opened(banner) =>
      q.(code := STATUS_CONNECTED, status := Some(message), output := true, input := true, pending := banner, skipLF := false)
    case IoFailure(_, closed) =>
      q.(code := STATUS_ERROR, status := Some(message), input := false, pending := [], socket := closed)
    case _ => q.(code := STATUS_ERROR, status := Some(message))
  }

  /** One run of the timer task: a location poll, if the timer is armed. */
  function Tick(s: Session, w: Wire): (r: Session)
    ensures !(Armed(s.timer) && IsConnected(s)) ==> r == s
    ensures r.timer == s.timer && r.frontend == s.frontend
    ensures r.code == s.code || r.code == STATUS_DISCONNECTED
    ensures Extends(s.events, r.events)
    ensures Valid(s) ==> Valid(r)
  {
    if Armed(s.timer) then CheckLocationAsWritten(s, w) else s
  }

  /** Characters arriving from the frontend outside an exchange wait on the input
      stream, if there is one. */
  function Arrive(s: Session, data: seq<char>): (r: Session)
    ensures s.input ==> r == s.(pending := s.pending + data)
    ensures !s.input ==> r == s
    ensures Valid(s) ==> Valid(r)
  {
    if s.input then s.(pending := s.pending + data) else s
  }

  /** Everything that can happen to a session. */
  datatype Op =
    | ConnectTo(frontend: Frontend, interval: int, outcome: ConnectOutcome)
    | Hangup(env: Env)
    | Key(key: string, w: Wire)
    | Jump(point: string, w: Wire, poll: Wire)
    | Play(command: string, w: Wire, poll: Wire)
    | Query(query: string, w: Wire)
    | TimerTick(w: Wire)
    | Arrival(data: seq<char>)

  /** One operation, as the source performs it: `Disconnect` and the location
      poll run as written. */
  function Step(s: Session, op: Op): (r: Session)
    ensures Valid(s) ==> Valid(r)
  {
    match op
    case ConnectTo(f, interval, outcome) => Connect(s, f, interval, outcome)
    case Hangup(env) => DisconnectAsWritten(s, env)
    case Key(key, w) => SendKey(s, key, w)
    case Jump(point, w, poll) => SendJump(s, point, w, poll)
    case Play(command, w, poll) => SendPlay(s, command, w, poll)
    case Query(query, w) => SendQuery(s, query, w).0
    case TimerTick(w) => Tick(s, w)
    case Arrival(data) => Arrive(s, data)
  }

  /** The operations in order. */
  function Run(s: Session, ops: seq<Op>): Session
    decreases |ops|
  {
    if |ops| == 0 then s else Run(Step(s, ops[0]), ops[1..])
  }

  /** Every operation keeps the session valid, so every run does. */
  lemma {:induction false} RunValid(s: Session, ops: seq<Op>)
    requires Valid(s)
    ensures Valid(Run(s, ops))
    decreases |ops|
  {
    if |ops| > 0 {
      RunValid(Step(s, ops[0]), ops[1..]);
    }
  }

  /** No sequence of operations from a new session reaches the "connecting" code:
      `IsConnecting` is always false. */
  lemma NeverConnecting(ops: seq<Op>)
    ensures !IsConnecting(Run(Init(), ops))
  {
    RunValid(Init(), ops);
  }

  /** Draining input that ends in a timeout with nothing left over empties it. */
  lemma DrainClears(s: Session)
    requires IsConnected(s) && s.input && Decode(Waiting(s), Silence).rest == []
    ensures Drain(s) == s.(pending := [], skipLF := SkipAfter(s.pending, s.skipLF))
  {
    if |s.pending| > 0 {
      assert Unread(s.pending, s.skipLF) == [];
      assert Drain(s) == Discard(s);
    }
  }

  /** Stale input holding a whole response is read up to and including its prompt;
      what follows the prompt stays waiting. */
  lemma DrainFrame(s: Session, lines: seq<string>, eol: string, tail: seq<char>)
    requires IsConnected(s) && s.input
    requires LineEnd(eol) && DataLines(lines) && s.pending == Frame(lines, eol) + tail
    ensures Drain(s) == s.(pending := tail, skipLF := false)
  {
    FrameOwesNoSkip(lines, eol, tail, s.skipLF);
    DecodeFrame(lines, eol, tail, Silence);
  }

  /** Stale lines without a prompt are all read and thrown away. */
  lemma DrainBody(s: Session, lines: seq<string>, eol: string)
    requires IsConnected(s) && s.input
    requires LineEnd(eol) && DataLines(lines) && s.pending == Body(lines, eol)
    ensures Drain(s) == s.(pending := [], skipLF := if |lines| > 0 then eol == "\r" else s.skipLF)
  {
    if |lines| > 0 {
      AfterLineNoFeed(lines, eol, []);
      assert Body(lines, eol) + [] == Body(lines, eol);
    }
    BodyEndsOnReturn(lines, eol);
    DecodeUnfinished(lines, eol, Silence);
    DrainClears(s);
  }

  /** One complete exchange on a healthy connection: the command goes out with its
      newline, the framed response is read up to and including the prompt, what
      follows the prompt stays waiting, and the caller gets the lines (or `None`
      when an acknowledgement was expected and the first line is not "OK"). */
  lemma SendCommandExchange(s: Session, command: string, okExpected: bool, w: Wire,
                            lines: seq<string>, eol: string, tail: seq<char>)
    requires Valid(s) && IsConnected(s) && w.env.writeError.None?
    requires Decode(Waiting(s), Silence).rest == []
    requires LineEnd(eol) && DataLines(lines) && w.reply == Frame(lines, eol) + tail
    ensures SendCommand(s, command, okExpected, w) ==
      (s.(sent := s.sent + EnsureNewline(command), pending := tail, skipLF := false),
       if okExpected && !Acknowledged(lines) then None else Some(lines))
  {
    ExchangeWrites(s, command, w.env);
    var answered := s.(sent := s.sent + EnsureNewline(command), pending := w.reply, skipLF := SkipAfter(s.pending, s.skipLF));
    assert answered == SendData(s, command, w.env).(pending := [] + w.reply);
    ExchangeReads(answered, lines, eol, tail, w.ending, w.env);
  }

  /** A line end split between two reads: stale input whose last line ends at a
      lone '\r' is drained, the reply's leading '\n' completes that "\r\n", and the
      reply is read as if it had arrived on its own. */
  lemma ReturnSplitAcrossReads(s: Session, command: string, okExpected: bool, w: Wire,
                               stale: string, lines: seq<string>, eol: string, tail: seq<char>)
    requires Valid(s) && IsConnected(s) && w.env.writeError.None?
    requires DataLine(stale) && s.pending == stale + "\r"
    requires LineEnd(eol) && DataLines(lines) && w.reply == "\n" + (Frame(lines, eol) + tail)
    ensures SendCommand(s, command, okExpected, w) ==
      (s.(sent := s.sent + EnsureNewline(command), pending := tail, skipLF := false),
       if okExpected && !Acknowledged(lines) then None else Some(lines))
  {
    var written := SendData(s, command, w.env);
    StaleReturnWrites(s, command, w.env, stale);
    var answered := written.(pending := written.pending + w.reply);
    assert answered.pending == w.reply;
    OwedFeedRead(answered, lines, eol, tail, w.ending, w.env);
  }

  /** Stale input whose last line ends at a lone '\r' is drained before the command
      goes out, and the reader is left owing the skip of a '\n'. */
  lemma StaleReturnWrites(s: Session, command: string, env: Env, stale: string)
    requires Valid(s) && IsConnected(s) && env.writeError.None?
    requires DataLine(stale) && s.pending == stale + "\r"
    ensures SendData(s, command, env) == s.(sent := s.sent + EnsureNewline(command), pending := [], skipLF := true)
  {
    var staleLines := [stale];
    assert DataLines(staleLines[1..]);
    assert Body(staleLines, "\r") == s.pending;
    DrainBody(s, staleLines, "\r");
  }

  /** A read that owes the skip of a '\n' and finds one before a framed response
      drops it and reads the response as its lines. */
  lemma OwedFeedRead(q: Session, lines: seq<string>, eol: string, tail: seq<char>, ending: Ending, env: Env)
    requires IsConnected(q) && q.input && q.skipLF
    requires LineEnd(eol) && DataLines(lines) && q.pending == "\n" + (Frame(lines, eol) + tail)
    ensures ReadResult(q, ending, env) == (q.(pending := tail, skipLF := false), lines)
  {
    var framed := Frame(lines, eol) + tail;
    assert Waiting(q) == framed;
    FrameOwesNoSkip(lines, eol, tail, false);
    DecodeFrame(lines, eol, tail, ending);
    assert SkipAfter(q.pending, true) == SkipAfter(framed, false);
  }

  /** A healthy command's exchange is the read of the reply that lands on the
      written session. */
  lemma SendCommandReads(s: Session, command: string, okExpected: bool, w: Wire)
    requires Valid(s) && IsConnected(s) && w.env.writeError.None?
    requires Decode(Waiting(s), Silence).rest == []
    ensures var answered := s.(sent := s.sent + EnsureNewline(command), pending := w.reply, skipLF := SkipAfter(s.pending, s.skipLF));
      var read := ReadResult(answered, w.ending, w.env);
      SendCommand(s, command, okExpected, w) == (read.0, if okExpected && !Acknowledged(read.1) then None else Some(read.1))
  {
    ExchangeWrites(s, command, w.env);
    var answered := s.(sent := s.sent + EnsureNewline(command), pending := w.reply, skipLF := SkipAfter(s.pending, s.skipLF));
    assert answered == SendData(s, command, w.env).(pending := [] + w.reply);
  }

  /** The write half of a healthy exchange: stale input is gone and the command is sent. */
  lemma ExchangeWrites(s: Session, command: string, env: Env)
    requires Valid(s) && IsConnected(s) && env.writeError.None?
    requires Decode(Waiting(s), Silence).rest == []
    ensures SendData(s, command, env) == s.(sent := s.sent + EnsureNewline(command), pending := [], skipLF := SkipAfter(s.pending, s.skipLF))
  {
    DrainClears(s);
  }

  /** The read half of a healthy exchange: a framed response is read as its lines,
      and what follows the prompt stays waiting. */
  lemma ExchangeReads(s: Session, lines: seq<string>, eol: string, tail: seq<char>, ending: Ending, env: Env)
    requires IsConnected(s) && s.input
    requires LineEnd(eol) && DataLines(lines) && s.pending == Frame(lines, eol) + tail
    ensures ReadResult(s, ending, env) == (s.(pending := tail, skipLF := false), lines)
  {
    FrameOwesNoSkip(lines, eol, tail, s.skipLF);
    DecodeFrame(lines, eol, tail, ending);
  }

  /** Without a write error and with reads that time out, a command writes exactly
      its line and leaves the code alone, whatever the frontend answers. */
  lemma SendCommandWrites(s: Session, command: string, okExpected: bool, w: Wire)
    requires Valid(s) && IsConnected(s) && w.env.writeError.None? && w.ending == Silence
    ensures var r := SendCommand(s, command, okExpected, w);
      r.0.sent == s.sent + EnsureNewline(command) && r.0.code == s.code && r.0.events == s.events
  {
  }

  /** A failed write reports the error, disconnects and reads nothing: an
      acknowledged command gives `None`, a query the empty list. */
  lemma SendCommandWriteFails(s: Session, command: string, okExpected: bool, w: Wire)
    requires Valid(s) && IsConnected(s) && w.env.writeError.Some?
    ensures var r := SendCommand(s, command, okExpected, w);
      && r.0.code == STATUS_DISCONNECTED && r.0.sent == s.sent
      && r.1 == (if okExpected then None else Some([]))
      && |r.0.events| > |s.events|
      && r.0.events[|s.events|] == StatusChanged(w.env.writeError.value + ": " + Address(s), STATUS_ERROR)
  {
  }

  /** "key <key>" on the wire. */
  lemma KeyLine(s: Session, key: string, w: Wire)
    requires Valid(s) && IsConnected(s) && w.env.writeError.None? && w.ending == Silence
    ensures SendKey(s, key, w).sent == s.sent + ("key " + key + "\n")
  {
    CommandLine("key", key);
    VerbsSpelled();
    SendCommandWrites(s, Command("key", key), true, w);
  }

  /** "query <query>" on the wire. */
  lemma QueryLine(s: Session, query: string, w: Wire)
    requires Valid(s) && IsConnected(s) && w.env.writeError.None? && w.ending == Silence
    ensures SendQuery(s, query, w).0.sent == s.sent + ("query " + query + "\n")
  {
    CommandLine("query", query);
    VerbsSpelled();
    SendCommandWrites(s, Command("query", query), false, w);
  }

  /** A poll on a healthy connection writes "query location". */
  lemma PollLine(s: Session, w: Wire)
    requires Valid(s) && IsConnected(s) && w.env.writeError.None? && w.ending == Silence
    ensures CheckLocationAsWritten(s, w).sent == s.sent + "query location\n"
  {
    PollSent(s, w);
    QueryLine(s, "location", w);
    LocationQueryText();
  }

  /** An armed timer on a healthy connection polls: each tick writes "query location". */
  lemma TickPolls(s: Session, w: Wire)
    requires Valid(s) && IsConnected(s) && Armed(s.timer)
    requires w.env.writeError.None? && w.ending == Silence
    ensures Tick(s, w).sent == s.sent + "query location\n"
  {
    PollLine(s, w);
  }

  /** The poll's command line, spelled out. */
  lemma LocationQueryText()
    ensures "query " + "location" + "\n" == "query location\n"
  {
  }

  /** The wrappers' verbs followed by the separating space. */
  lemma VerbsSpelled()
    ensures "key" + " " == "key " && "query" + " " == "query "
    ensures "jump" + " " == "jump " && "play" + " " == "play "
  {
  }

  /** A poll writes what its query writes, and nothing after it. */
  lemma PollSent(s: Session, w: Wire)
    requires IsConnected(s)
    ensures CheckLocationAsWritten(s, w).sent == SendQuery(s, "location", w).0.sent
  {
    var polled := SendQuery(s, "location", w);
    assert CheckLocationAsWritten(s, w) == Posted(polled.0, polled.1);
  }

  /** An acknowledged command followed by a poll writes the command's line and
      then "query location". */
  lemma CommandThenPoll(s: Session, verb: string, arg: string, w: Wire, poll: Wire)
    requires Valid(s) && IsConnected(s)
    requires w.env.writeError.None? && w.ending == Silence
    requires poll.env.writeError.None? && poll.ending == Silence
    ensures CheckLocationAsWritten(SendCommand(s, Command(verb, arg), true, w).0, poll).sent
      == s.sent + Command(verb, arg) + "query location\n"
  {
    CommandLine(verb, arg);
    SendCommandWrites(s, Command(verb, arg), true, w);
    PollLine(SendCommand(s, Command(verb, arg), true, w).0, poll);
  }

  /** "jump <point>" on the wire, then the poll's line. */
  lemma JumpLine(s: Session, point: string, w: Wire, poll: Wire)
    requires Valid(s) && IsConnected(s)
    requires w.env.writeError.None? && w.ending == Silence
    requires poll.env.writeError.None? && poll.ending == Silence
    ensures SendJump(s, point, w, poll).sent == s.sent + ("jump " + point + "\n") + "query location\n"
  {
    CommandThenPoll(s, "jump", point, w, poll);
    VerbsSpelled();
  }

  /** "play <command>" on the wire, then the poll's line. */
  lemma PlayLine(s: Session, command: string, w: Wire, poll: Wire)
    requires Valid(s) && IsConnected(s)
    requires w.env.writeError.None? && w.ending == Silence
    requires poll.env.writeError.None? && poll.ending == Silence
    ensures SendPlay(s, command, w, poll).sent == s.sent + ("play " + command + "\n") + "query location\n"
  {
    CommandThenPoll(s, "play", command, w, poll);
    VerbsSpelled();
  }

  /** With nothing failing, `Disconnect` twice is `Disconnect` once: the second call
      finds nothing connected and nothing open. */
  lemma DisconnectIdempotent(s: Session, env: Env)
    requires env.closeFault == NoCloseFault
    ensures Disconnect(Disconnect(s, env), env) == Disconnect(s, env)
    ensures DisconnectAsWritten(DisconnectAsWritten(s, env), env) == DisconnectAsWritten(s, env)
  {
  }

  /** The exit line `Disconnect` owes a connected frontend is lost as the source is
      written, and sent as intended. */
  lemma ExitLost(s: Session, env: Env)
    requires IsConnected(s) && s.output && env.writeError.None?
    ensures DisconnectAsWritten(s, env).sent == s.sent
    ensures Disconnect(s, env).sent == s.sent + "exit\n"
  {
  }

  /** A poll answered with a non-empty response on a healthy connection reports
      "Connected", notifies the first line exactly when it differs from the last
      location seen, and remembers it; only the query line goes out. */
  lemma CheckLocationNotices(s: Session, w: Wire, lines: seq<string>, eol: string, tail: seq<char>)
    requires Valid(s) && IsConnected(s) && w.env.writeError.None?
    requires Decode(Waiting(s), Silence).rest == []
    requires LineEnd(eol) && DataLines(lines) && |lines| > 0 && w.reply == Frame(lines, eol) + tail
    ensures var r := CheckLocation(s, w);
      && r.lastLocation == Some(lines[0])
      && r.code == s.code && r.pending == tail
      && r.events == s.events + [StatusChanged(Name(s) + " - Connected", STATUS_CONNECTED)]
                              + (if s.lastLocation != Some(lines[0]) then [LocationChanged(lines[0])] else [])
    ensures CheckLocationAsWritten(s, w) == CheckLocation(s, w)
  {
    var queried := PollAnswered(s, w, lines, eol, tail);
    AnsweredNotices(queried, lines);
    PollsAgree(s, w);
  }

  /** A poll on a healthy connection answered with a framed response is that
      response's bookkeeping on the session the query left: the query line sent,
      the tail waiting, and the session still connected. */
  lemma PollAnswered(s: Session, w: Wire, lines: seq<string>, eol: string, tail: seq<char>) returns (queried: Session)
    requires Valid(s) && IsConnected(s) && w.env.writeError.None?
    requires Decode(Waiting(s), Silence).rest == []
    requires LineEnd(eol) && DataLines(lines) && w.reply == Frame(lines, eol) + tail
    ensures queried == s.(sent := s.sent + "query location\n", pending := tail, skipLF := false)
    ensures IsConnected(SendQuery(s, "location", w).0)
    ensures CheckLocation(s, w) == Answered(queried, lines)
  {
    var q := Command("query", "location");
    assert EnsureNewline(q) == "query location\n";
    SendCommandExchange(s, q, false, w, lines, eol, tail);
    queried := s.(sent := s.sent + EnsureNewline(q), pending := tail, skipLF := false);
  }

  /** A non-empty answer on a connected session reports "Connected", then notifies
      the first line exactly when it is new, and changes nothing else. */
  lemma AnsweredNotices(q: Session, lines: seq<string>)
    requires IsConnected(q) && |lines| > 0
    ensures var r := Answered(q, lines);
      && r.lastLocation == Some(lines[0])
      && r.code == q.code && r.pending == q.pending && r.sent == q.sent
      && r.events == q.events + [StatusChanged(Name(q) + " - Connected", STATUS_CONNECTED)]
                              + (if q.lastLocation != Some(lines[0]) then [LocationChanged(lines[0])] else [])
  {
    var shown := SetStatus(q, Name(q) + " - Connected", STATUS_CONNECTED);
    assert Answered(q, lines) == Noticed(shown, lines[0]);
  }

  /** A poll answered with the prompt alone changes neither the last location nor
      the notifications. */
  lemma CheckLocationEmpty(s: Session, w: Wire, eol: string, tail: seq<char>)
    requires Valid(s) && IsConnected(s) && w.env.writeError.None?
    requires Decode(Waiting(s), Silence).rest == []
    requires LineEnd(eol) && w.reply == Frame([], eol) + tail
    ensures var r := CheckLocation(s, w);
      r.lastLocation == s.lastLocation && r.events == s.events && r.code == s.code && r.pending == tail
    ensures CheckLocationAsWritten(s, w) == CheckLocation(s, w)
  {
    var q := Command("query", "location");
    SendCommandExchange(s, q, false, w, [], eol, tail);
    PollsAgree(s, w);
  }

  /** Two polls that see the same location: the second one notifies nothing. */
  lemma RepeatedLocationQuiet(s: Session, w: Wire, lines: seq<string>, eol: string, tail: seq<char>)
    requires Valid(s) && IsConnected(s) && w.env.writeError.None?
    requires Decode(Waiting(s), Silence).rest == []
    requires LineEnd(eol) && DataLines(lines) && |lines| > 0 && w.reply == Frame(lines, eol) + tail
    requires s.lastLocation == Some(lines[0])
    ensures CheckLocationAsWritten(s, w).events == s.events + [StatusChanged(Name(s) + " - Connected", STATUS_CONNECTED)]
  {
    CheckLocationNotices(s, w, lines, eol, tail);
  }

  /** The reply of a poll whose read fails after one line: the line, then an
      IOException with message `m`. */
  lemma OneLineThenFailure(line: string, eol: string, m: string)
    requires LineEnd(eol) && DataLine(line)
    ensures Decode(line + eol, Broken(m)) == Decoded([line], [], Failed(m))
  {
    assert Body([line], eol) == line + eol + Body([], eol);
    assert line + eol + [] == line + eol;
    assert DataLines([line][1..]);
    DecodeUnfinished([line], eol, Broken(m));
  }

  /** The query of such a poll: the line comes back, but the session has
      disconnected. */
  lemma QueryFailsAfterLine(s: Session, w: Wire, line: string, eol: string, m: string)
    requires Valid(s) && IsConnected(s) && w.env.writeError.None?
    requires Decode(Waiting(s), Silence).rest == []
    requires LineEnd(eol) && DataLine(line) && w.reply == line + eol && w.ending == Broken(m)
    ensures SendQuery(s, "location", w).1 == Some([line])
    ensures !IsConnected(SendQuery(s, "location", w).0)
  {
    var q := Command("query", "location");
    SendCommandReads(s, q, false, w);
    var answered := s.(sent := s.sent + EnsureNewline(q), pending := w.reply, skipLF := SkipAfter(s.pending, s.skipLF));
    ReadFailsAfterLine(answered, line, eol, m, w.env);
  }

  /** Reading a line and then an IOException: the line, on a disconnected session. */
  lemma ReadFailsAfterLine(s: Session, line: string, eol: string, m: string, env: Env)
    requires IsConnected(s) && s.input && LineEnd(eol) && DataLine(line) && s.pending == line + eol
    ensures ReadResult(s, Broken(m), env).1 == [line]
    ensures ReadResult(s, Broken(m), env).0.code == STATUS_DISCONNECTED
  {
    assert s.pending[0] == line[0];
    OneLineThenFailure(line, eol, m);
  }

  /** As written, a poll whose read fails after one line ends disconnected yet posts
      "Connected" after the read error; as intended, no poll ever posts "Connected"
      on a session it leaves disconnected. */
  lemma PollHidesReadError(s: Session, w: Wire, line: string, eol: string, m: string)
    requires Valid(s) && IsConnected(s) && w.env.writeError.None?
    requires Decode(Waiting(s), Silence).rest == []
    requires LineEnd(eol) && DataLine(line) && w.reply == line + eol && w.ending == Broken(m)
    ensures var r := CheckLocationAsWritten(s, w);
      && !IsConnected(r)
      && StatusChanged(Name(s) + " - Connected", STATUS_CONNECTED) in r.events[|s.events|..]
    ensures var r := CheckLocation(s, w);
      && !IsConnected(r)
      && forall i :: |s.events| <= i < |r.events| && r.events[i].StatusChanged? ==> r.events[i].code == STATUS_ERROR
  {
    QueryFailsAfterLine(s, w, line, eol, m);
    var polled := SendQuery(s, "location", w);
    var connected := StatusChanged(Name(s) + " - Connected", STATUS_CONNECTED);
    var shown := SetStatus(polled.0, Name(polled.0) + " - Connected", STATUS_CONNECTED);
    assert CheckLocationAsWritten(s, w) == Posted(polled.0, polled.1);
    assert Posted(polled.0, polled.1) == Noticed(shown, line);
    assert shown.events[|polled.0.events|] == connected;
    var r := CheckLocationAsWritten(s, w);
    assert r.events[|s.events|..][|polled.0.events| - |s.events|] == connected;
    CheckLocationReports(s, w);
  }
}

=== FILE: remote_ui.dfy ===
/** The decisions the MythMote activity makes, lifted out of its Android callbacks:
    which tab and captions a frontend location selects, which `key` tokens typed
    text becomes, which keys the hardware volume buttons send, and which title
    colour a status code gets. */
module RemoteUi {
  import opened Wrappers
  import opened Strings
  import opened LineCodec
  import MythSession

  const INDEX_MENU_TAB: nat := 0
  const INDEX_VIDEO_TAB: nat := 1
  const INDEX_LIVETV_TAB: nat := 2

  // ---------------------------------------------------------------------------
  // Location classification (`mythTvLocationChanged`)
  // ---------------------------------------------------------------------------

  /** What `mythTvLocationChanged` shows: the selected tab, the media title and
      subtitle, and whether the delete button is visible. */
  datatype Screen = Screen(tab: nat, title: string, subtitle: string, deleteVisible: bool)

  /** The location prefixes the activity compares against, in its order. */
  const Prefixes: seq<string> := ["Playback Video", "Playback Recorded", "Playback LiveTV", "mythvideo", "playbackbox"]

  /** True iff the location is one of the three playback screens, whose captions
      are read from its space-separated tokens. */
  predicate IsPlayback(location: string) {
    StartsWith(location, Prefixes[0]) || StartsWith(location, Prefixes[1]) || StartsWith(location, Prefixes[2])
  }

  /** The screen for a location reported by the frontend; `None` where the source
      indexes past the end of the `split(" ")` array and throws
      ArrayIndexOutOfBoundsException. */
  function ScreenFor(location: string): (r: Option<Screen>)
    ensures r.None? ==> IsPlayback(location)
    ensures r.Some? && r.value.tab != INDEX_MENU_TAB ==> IsPlayback(location)
    ensures r.Some? && r.value.deleteVisible ==>
      r.value.tab == INDEX_MENU_TAB && r.value.title == location && r.value.subtitle == ""
  {
    if StartsWith(location, Prefixes[0]) then
      var parts := JavaSplit(location, ' ');
      if |parts| > 2 then Some(Screen(INDEX_VIDEO_TAB, "Playing Video", parts[2], false)) else None
    else if StartsWith(location, Prefixes[1]) then
      var parts := JavaSplit(location, ' ');
      if |parts| > 4 then Some(Screen(INDEX_VIDEO_TAB, "Playing Recording", parts[2] + " of " + parts[4], false))
      else None
    else if StartsWith(location, Prefixes[2]) then
      var parts := JavaSplit(location, ' ');
      if |parts| > 4 then Some(Screen(INDEX_LIVETV_TAB, "Playing Live TV", parts[2] + " of " + parts[4], false))
      else None
    else if StartsWith(location, Prefixes[3]) || StartsWith(location, Prefixes[4]) then
      Some(Screen(INDEX_MENU_TAB, location, "", true))
    else
      Some(Screen(INDEX_MENU_TAB, location, "", false))
  }

  /** No location starts with two of the compared prefixes, so the order of the comparisons
      never decides the outcome. */
  lemma PrefixesExclusive(location: string, i: nat, j: nat)
    requires i < j < |Prefixes|
    ensures StartsWith(location, Prefixes[i]) ==> !StartsWith(location, Prefixes[j])
  {
    var p, q := Prefixes[i], Prefixes[j];
    // The first index at which the two prefixes differ.
    var k := if j < 3 then 9 else 0;
    assert k < |p| && k < |q| && p[k] != q[k] by {
      if i == 0 && j == 1 {
      } else if i == 0 && j == 2 {
      } else if i == 1 && j == 2 {
      } else if i == 3 {
      } else {
        assert q[0] != 'P';
      }
    }
    if StartsWith(location, p) {
      assert location[k] == p[k] by {
        assert location[..|p|][k] == p[k];
      }
      if |q| <= |location| {
        assert location[..|q|][k] != q[k];
      }
    }
  }

  /** The tokens of a location as the frontend writes them: non-empty words without
      spaces, separated by single spaces. */
  predicate Words(words: seq<string>) {
    forall i :: 0 <= i < |words| ==> words[i] != "" && ' ' !in words[i]
  }

  /** A location made of tokens starts with its first two tokens. */
  lemma WordsStart(words: seq<string>)
    requires |words| >= 3
    ensures StartsWith(Join(words, ' '), words[0] + " " + words[1])
  {
    var head := words[0] + " " + words[1];
    JoinFirstTwo(words, ' ');
    StartsWithAppend(head + " ", Join(words[2..], ' '));
    StartsWithShorter(Join(words, ' '), head, " ");
  }

  /** The three playback prefixes are two tokens each. */
  lemma PlaybackPrefixWords()
    ensures "Playback" + " " + "Video" == Prefixes[0]
    ensures "Playback" + " " + "Recorded" == Prefixes[1]
    ensures "Playback" + " " + "LiveTV" == Prefixes[2]
  {
  }

  /** "Playback Video <time> ..." selects the video tab with the time as subtitle. */
  lemma PlaybackVideoScreen(words: seq<string>)
    requires |words| >= 3 && Words(words) && words[0] == "Playback" && words[1] == "Video"
    ensures ScreenFor(Join(words, ' ')) == Some(Screen(INDEX_VIDEO_TAB, "Playing Video", words[2], false))
  {
    WordsStart(words);
    JavaSplitJoin(words, ' ');
    PlaybackPrefixWords();
  }

  /** "Playback Recorded <time> of <length> ..." selects the video tab with
      "<time> of <length>" as subtitle. */
  lemma PlaybackRecordedScreen(words: seq<string>)
    requires |words| >= 5 && Words(words) && words[0] == "Playback" && words[1] == "Recorded"
    ensures ScreenFor(Join(words, ' '))
      == Some(Screen(INDEX_VIDEO_TAB, "Playing Recording", words[2] + " of " + words[4], false))
  {
    var location := Join(words, ' ');
    WordsStart(words);
    JavaSplitJoin(words, ' ');
    PlaybackPrefixWords();
    PrefixesExclusive(location, 0, 1);
  }

  /** "Playback LiveTV <time> of <length> ..." selects the Live TV tab with
      "<time> of <length>" as subtitle. */
  lemma PlaybackLiveTvScreen(words: seq<string>)
    requires |words| >= 5 && Words(words) && words[0] == "Playback" && words[1] == "LiveTV"
    ensures ScreenFor(Join(words, ' '))
      == Some(Screen(INDEX_LIVETV_TAB, "Playing Live TV", words[2] + " of " + words[4], false))
  {
    var location := Join(words, ' ');
    WordsStart(words);
    JavaSplitJoin(words, ' ');
    PlaybackPrefixWords();
    PrefixesExclusive(location, 0, 2);
    PrefixesExclusive(location, 1, 2);
  }

  /** Every location that is not a playback screen selects the menu tab and shows
      the location itself as title; the delete button is shown exactly for the
      video library and the recordings list. */
  lemma MenuScreen(location: string)
    requires !IsPlayback(location)
    ensures ScreenFor(location) == Some(Screen(INDEX_MENU_TAB, location, "",
      StartsWith(location, "mythvideo") || StartsWith(location, "playbackbox")))
  {
  }

  /** A playback location without a time token makes the activity index past the
      tokens (the exception path). */
  lemma PlaybackWithoutTime()
    ensures ScreenFor("Playback Video") == None
  {
    PlaybackVideoTokens();
    var location := Prefixes[0];
    assert StartsWith(location, Prefixes[0]) by {
      assert location[..|Prefixes[0]|] == Prefixes[0];
    }
    assert |JavaSplit(location, ' ')| == 2;
  }

  /** "Playback Video" alone splits into its two tokens. */
  lemma PlaybackVideoTokens()
    ensures JavaSplit(Prefixes[0], ' ') == ["Playback", "Video"]
  {
    var words := ["Playback", "Video"];
    PlaybackPrefixWords();
    assert Join(words, ' ') == Prefixes[0] by {
      assert words[1..] == ["Video"];
    }
    assert Words(words);
    JavaSplitJoin(words, ' ');
  }

  // ---------------------------------------------------------------------------
  // Typed text (`setupSendKeyboardInputButton`)
  // ---------------------------------------------------------------------------

  /** `Character.isWhitespace` as the Java runtimes of Unicode 6.0 to 6.2 (Java 7
      and 8, and Android of the same era) define it: the space, line and paragraph
      separators other than the no-break spaces, U+180E among them, and the ASCII
      controls U+0009..U+000D and U+001C..U+001F. */
  predicate IsWhitespace(c: char) {
    var n := c as int;
    || 0x09 <= n <= 0x0D
    || 0x1C <= n <= 0x20
    || n == 0x1680 || n == 0x180E
    || (0x2000 <= n <= 0x200A && n != 0x2007)
    || n == 0x2028 || n == 0x2029 || n == 0x205F || n == 0x3000
  }

  /** Whitespace the activity drops without sending anything. */
  predicate Dropped(c: char) {
    IsWhitespace(c) && c != '\t' && c != ' ' && c != '\r'
  }

  /** The `key` token sent for one typed character: a name for tab, space and
      carriage return, the character itself for anything that is not whitespace,
      and nothing for other whitespace. A token never holds a line break, so a
      typed character cannot end the command line early. */
  function KeyFor(c: char): (r: Option<string>)
    ensures r.None? <==> Dropped(c)
    ensures r.Some? ==> |r.value| >= 1 && forall j :: 0 <= j < |r.value| ==> !IsBreak(r.value[j])
    ensures r.Some? && |r.value| == 1 ==> r.value == [c] && !IsWhitespace(c)
  {
    if IsWhitespace(c) then
      if c == '\t' then Some("tab")
      else if c == ' ' then Some("space")
      else if c == '\r' then Some("enter")
      else None
    else Some([c])
  }

  /** The tokens sent for typed text, one per character that is not dropped. */
  function KeysFor(text: string): (keys: seq<string>)
    ensures |keys| <= |text|
    ensures |keys| == |text| <==> forall i :: 0 <= i < |text| ==> !Dropped(text[i])
    decreases |text|
  {
    if |text| == 0 then []
    else
      var rest := KeysFor(text[1..]);
      assert forall i :: 1 <= i < |text| ==> text[i] == text[1..][i - 1];
      match KeyFor(text[0])
      case Some(k) => [k] + rest
      case None => rest
  }

  /** Typing two texts one after the other sends the tokens of the first, then
      those of the second. */
  lemma {:induction false} KeysForAppend(a: string, b: string)
    ensures KeysFor(a + b) == KeysFor(a) + KeysFor(b)
    decreases |a|
  {
    if |a| > 0 {
      assert (a + b)[0] == a[0];
      assert (a + b)[1..] == a[1..] + b;
      KeysForAppend(a[1..], b);
    } else {
      assert a + b == b;
    }
  }

  /** The characters of `text` that are not dropped, in order. */
  function Kept(text: string): string
    decreases |text|
  {
    if |text| == 0 then []
    else if Dropped(text[0]) then Kept(text[1..])
    else [text[0]] + Kept(text[1..])
  }

  /** The character a token stands for, as the frontend reads it. */
  function KeyChar(key: string): Option<char> {
    if key == "tab" then Some('\t')
    else if key == "space" then Some(' ')
    else if key == "enter" then Some('\r')
    else if |key| == 1 then Some(key[0])
    else None
  }

  /** The text a token sequence stands for; `None` if some token stands for no character. */
  function Untype(keys: seq<string>): Option<string>
    decreases |keys|
  {
    if |keys| == 0 then Some([])
    else match (KeyChar(keys[0]), Untype(keys[1..]))
      case (Some(c), Some(cs)) => Some([c] + cs)
      case _ => None
  }

  /** The tokens sent for typed text stand for exactly the characters that were
      not dropped, in the order they were typed. */
  lemma {:induction false} UntypeKeysFor(text: string)
    ensures Untype(KeysFor(text)) == Some(Kept(text))
    decreases |text|
  {
    if |text| > 0 {
      var c := text[0];
      UntypeKeysFor(text[1..]);
      match KeyFor(c)
      case None =>
      case Some(k) =>
        var keys := [k] + KeysFor(text[1..]);
        assert keys[1..] == KeysFor(text[1..]);
        assert KeyChar(k) == Some(c) by {
          if !IsWhitespace(c) {
            assert k == [c];
          }
        }
    }
  }

  /** The command lines the send button writes for typed text: one `key` command
      per token, in order. */
  method TypedCommands(text: string) returns (commands: seq<string>)
    ensures |commands| == |KeysFor(text)|
    ensures forall i :: 0 <= i < |commands| ==> commands[i] == Command("key", KeysFor(text)[i])
  {
    commands := [];
    var i := 0;
    while i < |text|
      invariant 0 <= i <= |text|
      invariant |commands| == |KeysFor(text[..i])|
      invariant forall k :: 0 <= k < |commands| ==> commands[k] == Command("key", KeysFor(text[..i])[k])
    {
      KeysForAppend(text[..i], [text[i]]);
      assert text[..i + 1] == text[..i] + [text[i]];
      match KeyFor(text[i]) {
        case Some(key) =>
          assert KeysFor([text[i]]) == [key];
          commands := commands + [Command("key", key)];
        case None =>
          assert KeysFor([text[i]]) == [];
      }
      i := i + 1;
    }
    assert text[..i] == text;
  }

  // ---------------------------------------------------------------------------
  // Hardware volume keys (`onKeyDown`)
  // ---------------------------------------------------------------------------

  /** Android's `KeyEvent` codes of the two volume buttons. */
  const KEYCODE_VOLUME_UP: int := 24
  const KEYCODE_VOLUME_DOWN: int := 25

  /** The frontend's volume keys. */
  const KEY_VOLUME_DOWN: string := "["
  const KEY_VOLUME_UP: string := "]"

  /** The key a hardware button sends; `None` hands the event back to Android. */
  function VolumeKey(keyCode: int): (r: Option<string>)
    ensures r.Some? <==> keyCode == KEYCODE_VOLUME_DOWN || keyCode == KEYCODE_VOLUME_UP
  {
    if keyCode == KEYCODE_VOLUME_DOWN then Some(KEY_VOLUME_DOWN)
    else if keyCode == KEYCODE_VOLUME_UP then Some(KEY_VOLUME_UP)
    else None
  }

  /** Down sends "[", up sends "]": two different keys, each the token that typing
      that bracket would send. */
  lemma VolumeKeys()
    ensures VolumeKey(KEYCODE_VOLUME_DOWN) == Some("[") && VolumeKey(KEYCODE_VOLUME_UP) == Some("]")
    ensures KeysFor("[") == ["["] && KeysFor("]") == ["]"]
  {
    assert "["[1..] == [] && "]"[1..] == [];
  }

  // ---------------------------------------------------------------------------
  // Title bar (`statusChanged`)
  // ---------------------------------------------------------------------------

  /** The status codes of MythCom. */
  const STATUS_DISCONNECTED := MythSession.STATUS_DISCONNECTED
  const STATUS_CONNECTED := MythSession.STATUS_CONNECTED
  const STATUS_CONNECTING := MythSession.STATUS_CONNECTING
  const STATUS_ERROR := MythSession.STATUS_ERROR

  /** The title colours the activity uses. */
  datatype Colour = Red | Green | Yellow

  /** The `android.graphics.Color` constant of a colour, as a signed 32-bit ARGB value. */
  function Argb(c: Colour): int {
    match c
    case Red => -0x1_0000         // 0xFFFF0000
    case Green => -0xFF_0100      // 0xFF00FF00
    case Yellow => -0x100         // 0xFFFFFF00
  }

  /** The colour set for a status code; `None` leaves the colour as it was. */
  function TitleColour(code: int): (r: Option<Colour>)
    ensures r == Some(Red) <==> code == STATUS_ERROR || code == STATUS_DISCONNECTED
    ensures r == Some(Green) <==> code == STATUS_CONNECTED
    ensures r == Some(Yellow) <==> code == STATUS_CONNECTING
  {
    if code == STATUS_ERROR then Some(Red)
    else if code == STATUS_DISCONNECTED then Some(Red)
    else if code == STATUS_CONNECTED then Some(Green)
    else if code == STATUS_CONNECTING then Some(Yellow)
    else None
  }

  /** The title bar: its text and its colour (`None` until a colour is set). */
  datatype Titlebar = Titlebar(title: string, colour: Option<Colour>)

  /** `statusChanged`: the message becomes the title, and the colour follows the code. */
  function StatusShown(bar: Titlebar, message: string, code: int): (r: Titlebar)
    ensures r.title == message
    ensures code == STATUS_ERROR || code == STATUS_DISCONNECTED ==> r.colour == Some(Red)
    ensures code == STATUS_CONNECTED ==> r.colour == Some(Green)
    ensures code == STATUS_CONNECTING ==> r.colour == Some(Yellow)
    ensures code !in {STATUS_DISCONNECTED, STATUS_CONNECTED, STATUS_CONNECTING, STATUS_ERROR} ==> r.colour == bar.colour
  {
    Titlebar(message, if TitleColour(code).Some? then TitleColour(code) else bar.colour)
  }

  /** The four colour constants are distinct ARGB values, and the status codes of
      MythCom each get a colour, so a status change always recolours the title. */
  lemma ColoursDistinct(code: int)
    requires code in {STATUS_DISCONNECTED, STATUS_CONNECTED, STATUS_CONNECTING, STATUS_ERROR}
    ensures TitleColour(code).Some?
    ensures forall a: Colour, b: Colour :: Argb(a) == Argb(b) ==> a == b
  {
  }
}

=== FILE: strings.dfy ===
/** Text helpers shared by the protocol and the user interface: prefix and suffix
    tests, and splitting on a separator character the way Java's `String.split`
    does for a one-character pattern. */
module Strings {

  /** True iff `s` begins with `prefix` (Java `startsWith`). */
  predicate StartsWith(s: string, prefix: string) {
    |prefix| <= |s| && s[..|prefix|] == prefix
  }

  /** True iff `s` ends with `suffix` (Java `endsWith`). */
  predicate EndsWith(s: string, suffix: string) {
    |suffix| <= |s| && s[|s| - |suffix|..] == suffix
  }

  /** Every piece of `s` between occurrences of `sep`, empty pieces included:
      the pieces of "a  b" are "a", "", "b". */
  function SplitOn(s: string, sep: char): (pieces: seq<string>)
    ensures |pieces| >= 1
    ensures forall i :: 0 <= i < |pieces| ==> sep !in pieces[i]
    decreases |s|
  {
    if |s| == 0 then [""]
    else
      var tail := SplitOn(s[1..], sep);
      if s[0] == sep then [""] + tail
      else [[s[0]] + tail[0]] + tail[1..]
  }

  /** The pieces glued back together with `sep` between neighbours. */
  function Join(pieces: seq<string>, sep: char): string
    requires |pieces| >= 1
    decreases |pieces|
  {
    if |pieces| == 1 then pieces[0]
    else pieces[0] + [sep] + Join(pieces[1..], sep)
  }

  /** Joining the pieces of a split gives back the original text. */
  lemma {:induction false} JoinSplitOn(s: string, sep: char)
    ensures Join(SplitOn(s, sep), sep) == s
    decreases |s|
  {
    if |s| > 0 {
      var tail := SplitOn(s[1..], sep);
      JoinSplitOn(s[1..], sep);
      if s[0] == sep {
        assert ([""] + tail)[1..] == tail;
      } else if |tail| > 1 {
        var pieces := [[s[0]] + tail[0]] + tail[1..];
        assert pieces[1..] == tail[1..];
        assert Join(tail, sep) == tail[0] + [sep] + Join(tail[1..], sep);
        assert s == [s[0]] + s[1..];
      } else {
        assert s == [s[0]] + s[1..];
      }
    }
  }

  /** Text without the separator is a single piece. */
  lemma {:induction false} SplitOnWithoutSep(s: string, sep: char)
    requires sep !in s
    ensures SplitOn(s, sep) == [s]
    decreases |s|
  {
    if |s| > 0 {
      assert sep !in s[1..] by {
        forall i | 0 <= i < |s[1..]| ensures s[1..][i] != sep {
          assert s[1..][i] == s[i + 1];
        }
      }
      SplitOnWithoutSep(s[1..], sep);
      assert [s[0]] + s[1..] == s;
    }
  }

  /** Splitting at the first separator: the piece before it comes first, then the
      pieces of what follows. */
  lemma {:induction false} SplitOnFirst(a: string, sep: char, b: string)
    requires sep !in a
    ensures SplitOn(a + [sep] + b, sep) == [a] + SplitOn(b, sep)
    decreases |a|
  {
    var s := a + [sep] + b;
    if |a| == 0 {
      assert s[1..] == b;
    } else {
      assert s[1..] == a[1..] + [sep] + b;
      assert sep !in a[1..] by {
        forall i | 0 <= i < |a[1..]| ensures a[1..][i] != sep {
          assert a[1..][i] == a[i + 1];
        }
      }
      SplitOnFirst(a[1..], sep, b);
      assert [a[0]] + a[1..] == a;
    }
  }

  /** Splitting a join recovers the pieces, provided no piece holds the separator;
      with JoinSplitOn this makes SplitOn and Join inverse to each other. */
  lemma {:induction false} SplitOnJoin(pieces: seq<string>, sep: char)
    requires |pieces| >= 1
    requires forall i :: 0 <= i < |pieces| ==> sep !in pieces[i]
    ensures SplitOn(Join(pieces, sep), sep) == pieces
    decreases |pieces|
  {
    if |pieces| == 1 {
      SplitOnWithoutSep(pieces[0], sep);
    } else {
      SplitOnJoin(pieces[1..], sep);
      SplitOnFirst(pieces[0], sep, Join(pieces[1..], sep));
      assert [pieces[0]] + pieces[1..] == pieces;
    }
  }

  /** The pieces with trailing empty pieces removed, as `String.split` returns them. */
  function DropTrailingEmpty(pieces: seq<string>): (kept: seq<string>)
    ensures |kept| <= |pieces| && kept == pieces[..|kept|]
    ensures forall j :: |kept| <= j < |pieces| ==> pieces[j] == ""
    ensures |kept| > 0 ==> kept[|kept| - 1] != ""
    decreases |pieces|
  {
    if |pieces| == 0 then []
    else if pieces[|pieces| - 1] == "" then DropTrailingEmpty(pieces[..|pieces| - 1])
    else pieces
  }

  /** Java `s.split(String.valueOf(sep))`: a text without the separator is returned
      whole; otherwise the pieces, minus trailing empty ones. */
  function JavaSplit(s: string, sep: char): seq<string> {
    if sep !in s then [s] else DropTrailingEmpty(SplitOn(s, sep))
  }

  /** A non-empty piece survives `String.split`, at the same index. */
  lemma JavaSplitKeeps(s: string, sep: char, i: nat)
    requires i < |SplitOn(s, sep)| && SplitOn(s, sep)[i] != ""
    ensures i < |JavaSplit(s, sep)| && JavaSplit(s, sep)[i] == SplitOn(s, sep)[i]
  {
    if sep !in s {
      SplitOnWithoutSep(s, sep);
    }
  }

  /** `s` followed by anything starts with `s`. */
  lemma StartsWithAppend(s: string, more: string)
    ensures StartsWith(s + more, s)
  {
    assert (s + more)[..|s|] == s;
  }

  /** A text that starts with `a + b` starts with `a`. */
  lemma StartsWithShorter(s: string, a: string, b: string)
    requires StartsWith(s, a + b)
    ensures StartsWith(s, a)
  {
    assert s[..|a|] == s[..|a + b|][..|a|] == (a + b)[..|a|] == a;
  }

  /** The join of three or more pieces begins with the first two and a separator each. */
  lemma JoinFirstTwo(pieces: seq<string>, sep: char)
    requires |pieces| >= 3
    ensures Join(pieces, sep) == (pieces[0] + [sep] + pieces[1] + [sep]) + Join(pieces[2..], sep)
  {
    assert pieces[1..][1..] == pieces[2..];
  }

  /** A join of two or more pieces contains the separator. */
  lemma JoinHasSep(pieces: seq<string>, sep: char)
    requires |pieces| >= 2
    ensures sep in Join(pieces, sep)
  {
    assert Join(pieces, sep)[|pieces[0]|] == sep;
  }

  /** Splitting a join of non-empty pieces the Java way recovers the pieces. */
  lemma JavaSplitJoin(pieces: seq<string>, sep: char)
    requires |pieces| >= 2
    requires forall i :: 0 <= i < |pieces| ==> pieces[i] != "" && sep !in pieces[i]
    ensures JavaSplit(Join(pieces, sep), sep) == pieces
  {
    JoinHasSep(pieces, sep);
    SplitOnJoin(pieces, sep);
    assert pieces[|pieces| - 1] != "";
  }
}

=== FILE: update_timer.dfy ===
/** The status-update timer of MythCom (`scheduleUpdateTimer`), reduced to its
    handle bookkeeping: one optional live task, re-armed by cancelling the old
    one and creating a new one only for a positive interval. The Java `Timer`
    and its `TimerTask` are always created and cleared together, so one handle
    stands for both. */
module UpdateTimer {
  import opened Wrappers

  /** A scheduled task: its creation number and its delay and period in milliseconds. */
  datatype Task = Task(id: nat, period: int)

  /** The live task, if any, and how many tasks were ever cancelled and created. */
  datatype Timer = Timer(live: Option<Task>, cancelled: nat, created: nat)

  /** No timer has been created yet. */
  const NoTimer := Timer(None, 0, 0)

  /** Every created task is either cancelled or the live one, and the live task
      is the most recently created. */
  predicate TimerValid(t: Timer) {
    && t.created == t.cancelled + (if t.live.Some? then 1 else 0)
    && (t.live.Some? ==> t.live.value.id + 1 == t.created)
  }

  /** `scheduleUpdateTimer(interval)`. */
  function Reschedule(t: Timer, interval: int): (r: Timer)
    ensures r.cancelled == t.cancelled + (if t.live.Some? then 1 else 0)
    ensures r.live.Some? <==> interval > 0
    ensures r.live.Some? ==> r.live.value == Task(t.created, interval)
    ensures r.created == t.created + (if interval > 0 then 1 else 0)
    ensures TimerValid(t) ==> TimerValid(r)
  {
    var cleared := Timer(None, t.cancelled + (if t.live.Some? then 1 else 0), t.created);
    if interval > 0 then cleared.(live := Some(Task(t.created, interval)), created := t.created + 1)
    else cleared
  }

  /** The job a tick runs, if the timer is armed. */
  predicate Armed(t: Timer) {
    t.live.Some?
  }
}

=== FILE: wrappers.dfy ===
/** The optional value used wherever the source may hold or return `null`. */
module Wrappers {

  datatype Option<+T> = None | Some(value: T) {

    /** The held value, or `default` when there is none. */
    function GetOr(default: T): T {
      match this
      case Some(v) => v
      case None => default
    }
  }
}
